=== FILE: README.md ===
# navo_utils, modelled in Dafny

This project models the deterministic core of `navo_utils`. That is the
Python helper package of the NASA NAVO summer 2018 AAS workshop, which finds
Virtual Observatory services in the registry and queries them for images,
spectra and catalogue cones. The network and the astropy readers are
abstract. What is left is pure string, sequence and table manipulation, and
this model states and proves properties of it:

- the registry's ADQL builder (`RegistryClass._build_adql`): a case-insensitive
  service-type classifier and the assembly of the `where` clauses;
- the normalisation of query inputs shared by the image, spectra and cone
  searches (service, coordinates, radius, image format), and the per-position
  request parameters of Simple Image Access 1.0 (section 4.1: `POS`, `SIZE`
  as a diameter, `FORMAT`) and Simple Cone Search 1.03 (section 2.1: `RA`,
  `DEC`, `SR`);
- table post-processing: `sval` with a strict UTF-8 decoder, `sval_whole_column`,
  `stringify_table`, `find_column_by_ucd`, the TAP request record;
- `ImageTable`: the cached mnemonic-to-column-name map, lookup by
  `ImageColumn` mnemonic on tables and rows, and delegation to the base table;
- the spectra search's `get_column` / `get_column_name`;
- the cone search's service list and truncation, its coordinate handling, and
  the `xml_raw` / `url` envelope it puts on every response table.

Modules: `Wrappers` (`Option`, `Result`, the raised exception kinds), `Text`
(ASCII `lower`, substring search, `str.join`), `Utf8` (the encoder and the
strict decoder), `Tables` (values, columns, tables, `sval`, `stringify_table`,
`find_column_by_ucd`, TAP parameters), `Adql`, `QueryInputs` (what the three
search classes share), `ImageSearch`, `SpectraSearch`, `ConeSearch`.

Python's dynamically typed arguments are sum types. `CoordValue` is a string,
a `SkyCoord`, a list, a tuple, a number, or anything else. `RadiusArg` is a
scalar or a list. `Service` is a URL string, an `access_url` record, a table
row, a table of rows, a list, or nothing. A raised exception is an `Err` that
carries its kind. A method that caches state on `self` returns the updated
object with its result.

## Model

| member | source | states |
|---|---|---|
| Text.Lower | navo_utils/registry.py:190 | `str.lower` keeps the length and lower-cases each ASCII capital; no capital is left |
| Text.LowerIdempotent | navo_utils/registry.py:190-194 | lower-casing twice is lower-casing once |
| Text.Contains | navo_utils/registry.py:190-194 | Python's `sub in s` holds exactly when `sub` occurs at some position of `s` |
| Text.JoinLength | navo_utils/registry.py:229 | `sep.join(parts)` is as long as the parts plus one separator between each neighbouring pair |
| Text.JoinSnoc | navo_utils/registry.py:229 | joining one more part appends the separator and that part |
| Text.Join | navo_utils/registry.py:229 | `sep.join(parts)` of no parts is empty, and of some parts starts with the first |
| Text.JoinEndsWithLast | navo_utils/registry.py:229 | `sep.join(parts)` of a non-empty list ends with its last part |
| Utf8.DecodeEncode | navo_utils/utils.py:140-141 | decoding the UTF-8 encoding of any string gives the string back |
| Utf8.EncodeDecode | navo_utils/utils.py:140-141 | whatever the strict decoder accepts is the encoding of what it returns |
| Utf8.DecodeFirstEncodeChar | navo_utils/utils.py:140-141 | the decoder reads one encoded scalar value back whole, whatever follows it |
| Utf8.DecodeFirstIsEncoding | navo_utils/utils.py:140-141 | the bytes the decoder consumes for one scalar value are exactly that value's encoding |
| Utf8.Decode | navo_utils/utils.py:140-141 | strict decoding (`str(val, 'utf-8')`) gives the empty string exactly for empty input |
| Utf8.DecodeLength | navo_utils/utils.py:140-141 | a decoded string has at most one character per byte |
| Utf8.DecodeAscii | navo_utils/utils.py:140-141 | ASCII bytes decode one character per byte, each with that byte's code |
| Tables.Sval | navo_utils/utils.py:125-143 | a string is returned unchanged and any other non-bytes value as its `str`; bytes succeed exactly when they are valid UTF-8, and the result re-encodes to those bytes; the only failure is `UnicodeDecodeError` on bytes |
| Tables.SvalOfEncoded | navo_utils/registry.py:61-62 | `sval` of a string's UTF-8 bytes is that string |
| Tables.SvalCells | navo_utils/utils.py:146-163 | the element-wise pass of the vectorised `sval` (the empty-column failure belongs to `SvalWholeColumn`): it keeps the length and gives each cell's `sval`, and fails exactly when some cell fails, with that cell's error |
| Tables.SvalWholeColumn | navo_utils/utils.py:146-165 | fails with `ValueError` on an empty column (the vectorised function cannot infer its output type) and with `UnicodeDecodeError` exactly when some bytes cell is not UTF-8; otherwise the new column keeps the name, the `meta` and the length, and holds each cell's string |
| Tables.StringifyColumns | navo_utils/registry.py:106-113 | exactly the object columns whose first cell is bytes are replaced by their stringified column; every other column is kept as is |
| Tables.NeedsStringify | navo_utils/utils.py:186-189 | a column selected for conversion has a first cell and it is bytes, and its conversion can fail only with `UnicodeDecodeError`, never with the empty-column `ValueError` |
| Tables.StringifyTable | navo_utils/utils.py:167-192 | a zero-row table is untouched; otherwise the names, their order, the table metadata and every column not needing conversion are kept, and each column needing conversion is its stringified column; it fails exactly when one of those columns holds invalid UTF-8 |
| Tables.StringifyTableDone | navo_utils/registry.py:103-113 | after stringifying a non-empty table no column needs conversion, and the row count and rectangular shape are kept |
| Tables.StringifyTableIdempotent | navo_utils/utils.py:182-192 | stringifying a stringified table changes nothing |
| Tables.TableFromVotableResponse | navo_utils/utils.py:14-48 | a parse failure is passed on; a parsed table is exactly that table after `stringify_table`, so it keeps the same column names and, when it has rows, has no column left to stringify |
| Tables.FirstUcdIndex | navo_utils/utils.py:76-83 | the index found carries the UCD and no earlier column does; `None` exactly when no column carries it |
| Tables.FindColumnByUcd | navo_utils/utils.py:50-83 | the column returned is the first in column order whose `meta['ucd']` equals the argument; `None` exactly when no column carries that UCD |
| Tables.FindColumnByUcdAt | navo_utils/utils.py:76-81 | the column found is the one at the first position carrying the UCD |
| Tables.FindColumnByUcdSkipsUntagged | navo_utils/utils.py:78-79 | a column with no `ucd` metadata is never returned |
| Tables.TapParams | navo_utils/utils.py:109-113 | the TAP request record has exactly the keys `request`, `lang`, `query` |
| Tables.TapParamsRoundTrip | navo_utils/utils.py:109-113 | a reader of a TAP 1.0 synchronous request (section 2.3 of IVOA TAP 1.0) gets back exactly the ADQL query sent |
| Adql.ClassifyServiceType | navo_utils/registry.py:190-197 | "image" anywhere in the lower-cased text gives `simpleimageaccess`; otherwise "spectr" gives `simplespectralaccess`; otherwise "cone" gives `conesearch`; otherwise `tableaccess`, with each case as an if-and-only-if |
| Adql.ClassifyIgnoresCase | navo_utils/registry.py:190-197 | two service types that agree once lower-cased are classified alike |
| Adql.ClassifyLowered | navo_utils/registry.py:190-197 | classifying the lower-cased text gives the same capability type |
| Adql.ClassifyCapTypeName | navo_utils/registry.py:190-197 | each capability type's own `cap_type` name is classified as that type |
| Adql.KeywordClauseThreeTimes | navo_utils/registry.py:221-226 | the keyword clause is one fixed template, the clause of the empty keyword, with the keyword substituted into its three slots: the description, title and ivoid patterns; every other character is the same whatever the keyword |
| Adql.KeywordClause | navo_utils/registry.py:221-226 | the clause grows by three characters per keyword character, and the keyword can be read back from each of its three slots |
| Adql.BuildAdql | navo_utils/registry.py:164-237 | the query is the select list, then `where `, then the capability clause, then the source, waveband and keyword clauses, each only when its argument is non-empty and each after `logic_string` (default `" and "`), then `order by <order_by>` with no separator, present only for a non-empty `order_by` |
| Adql.WhereBody | navo_utils/registry.py:214-229 | the joined `where` body is the capability clause followed by each present clause after its separator |
| Adql.WhereClausesCount | navo_utils/registry.py:214-227 | the capability clause is always present and always first; there is one more clause per non-empty source, waveband and keyword |
| Adql.ParseArgs | navo_utils/registry.py:164-187 | a recognised keyword argument that is given sets its field, and each one not given takes its default: the empty string, or `" and "` for `logic_string` |
| Adql.WhereClauses | navo_utils/registry.py:213-227 | one clause per present argument: the capability clause first, the source clause second when given, the waveband clause next, and the keyword clause last when given |
| Adql.OrderClause | navo_utils/registry.py:231-233 | the `order by` suffix is empty exactly when `order_by` is empty; otherwise it is the words `order by ` followed by `order_by` itself, with nothing added after it |
| Adql.UnrecognisedKeywordIgnored | navo_utils/registry.py:175-187 | adding a keyword argument `_build_adql` does not recognise leaves the query unchanged |
| Adql.BuildAdqlIgnoresServiceTypeCase | navo_utils/registry.py:175-197 | replacing `service_type` by a text that agrees with it once lower-cased leaves the query unchanged |
| QueryInputs.AsServiceRecord | navo_utils/image.py:45-46 | a string service becomes the one-entry record mapping `access_url` to that URL; any other service passes through unchanged |
| QueryInputs.AsServiceRecordIdempotent | navo_utils/spectra.py:40-41 | normalising the service twice is normalising it once |
| QueryInputs.WrapCoords | navo_utils/image.py:48-50 | a string or `SkyCoord` becomes a one-element list, a list passes through, and anything else, a bare tuple included, fails the assertion |
| QueryInputs.BroadcastRadius | navo_utils/image.py:52-56 | a scalar radius is copied once per coordinate; a list radius is accepted exactly when its length matches and is then used as is |
| QueryInputs.FormatToken | navo_utils/image.py:58-72 | the lower-cased format is searched for "fits", "jpeg", "jpg", "png", "graphics", "all" in that priority: each token is the result exactly when its word occurs and no earlier word does; "jpeg" and "jpg" both give `image/jpeg`, and the error is raised exactly when no word occurs |
| QueryInputs.NormaliseFormat | navo_utils/image.py:58-72 | no format stays `None`; a given format is normalised to its token or rejected |
| QueryInputs.FormatIgnoresCase | navo_utils/spectra.py:53-67 | two formats that agree once lower-cased normalise alike |
| QueryInputs.JpegSpellings | navo_utils/image.py:61-64 | "jpeg" and "jpg" in any case both give `image/jpeg` |
| QueryInputs.TokenFixed | navo_utils/image.py:58-72 | each canonical token normalises to itself |
| QueryInputs.NormaliseFormatIdempotent | navo_utils/spectra.py:53-67 | normalising an already normalised format changes nothing |
| QueryInputs.NormaliseQuery | navo_utils/image.py:45-75 | the query succeeds exactly when the coordinates wrap, the radius broadcasts and the format normalises; a coordinate or radius failure is the assertion failure and only a bad format is the format error; there is one parameter record per coordinate, and record i pairs coordinate i with radius i and the shared format |
| QueryInputs.SingleCoordinateQuery | navo_utils/image.py:48-53 | a single coordinate with a scalar radius gives exactly one parameter record |
| QueryInputs.ParseText | navo_utils/image.py:87-89 | the coordinate parser's answer, or its failure |
| QueryInputs.ResolveSearchCoords | navo_utils/image.py:86-91 | a two-element list or tuple is rendered as "ra dec" and parsed; a string is parsed; a `SkyCoord` is kept; anything else fails the assertion |
| QueryInputs.SiaParams | navo_utils/image.py:93-98 | the request holds `POS` and `SIZE`, and `FORMAT` exactly when a format is given |
| QueryInputs.SiaParamsRoundTrip | navo_utils/image.py:93-98 | a reader of an SIA 1.0 request (section 4.1) recovers the position, the radius and the format; `SIZE` is twice the radius, a diameter |
| QueryInputs.OneSearchRequest | navo_utils/image.py:85-100 | one search fails exactly when its coordinates do not resolve, with that error; otherwise the request goes to the given service with the given timeout and retries, its parameters are exactly `POS`, `SIZE` and an optional `FORMAT`, and a reader gets back the resolved position, the radius and the format |
| ImageSearch.Query | navo_utils/image.py:25-75 | `ImageClass.query` up to the network: it succeeds exactly when the coordinates wrap, the radius broadcasts and the format normalises, so a string or `SkyCoord` with a scalar radius and no format always succeeds; coordinate and radius failures are assertion failures, a bad format the format error; the plan holds the normalised service, one record per coordinate, a scalar radius copied to each and a list radius matched index by index, and the normalised format |
| ImageSearch.OneImageSearch | navo_utils/image.py:85-100 | the request goes to the given service and uses a 60-second timeout and 3 tries; it fails exactly when the coordinates do not resolve, with that error; the parameters are only `POS`, `SIZE` (twice the radius) and `FORMAT`, present exactly when a format is given; a reader gets back the resolved position, the radius and the format |
| ImageSearch.WrapResults | navo_utils/image.py:78-83 | each result table is wrapped in an `ImageTable` whose mnemonic map is not yet built, in the same order |
| ImageSearch.MembersComplete | navo_utils/image.py:124-151 | the 22 `ImageColumn` members are all listed |
| ImageSearch.MemberNameInjective | navo_utils/image.py:124-151 | distinct members have distinct names, so names key the mnemonic map without collision |
| ImageSearch.ColumnNameFor | navo_utils/image.py:199-204 | a member's column name is the name of the first column with its UCD, or `None` exactly when there is none |
| ImageSearch.ComputeUcdmap | navo_utils/image.py:206-211 | the map has an entry for each member, keyed by the member's name, whose value is that member's column name, and no other keys |
| ImageSearch.UcdmapSize | navo_utils/image.py:206-211 | the map's keys are exactly the member names, and it has exactly 22 entries |
| ImageSearch.GetUcdmap | navo_utils/image.py:206-213 | a non-empty cached map is returned as it is; a missing or empty one (`not self.__ucdmap__`) is rebuilt from the table and cached, leaving a valid cache; with a valid cache the answer is always the map computed from the table |
| ImageSearch.GetUcdmapReused | navo_utils/image.py:207 | asking again after the map is built returns the cached map and object unchanged |
| ImageSearch.GetUcdColumnName | navo_utils/image.py:222-228 | a key that is not an `ImageColumn` raises `ValueError`; a member gives its entry in the map, which is its column name |
| ImageSearch.PyIndex | navo_utils/image.py:238 | Python's index normalisation: `-n <= i < n` is valid, and a negative index counts from the end |
| ImageSearch.BaseGetItem | navo_utils/image.py:236-238 | the base table gives the column with the name, or `KeyError`; for an index it gives the row it denotes, counting a negative index from the end, or `IndexError` when the index is out of range |
| ImageSearch.GetItem | navo_utils/image.py:230-238 | a mnemonic is looked up through the map; every other key goes to the base table unchanged |
| ImageSearch.MnemonicLookup | navo_utils/image.py:230-236 | a mnemonic the map gives no name for yields no item; a mapped name yields that column of the table, or `KeyError` exactly when the table has no column of that name |
| ImageSearch.UcdItem | navo_utils/utils.py:76-83 | the item a UCD selects is the first column carrying it, or nothing exactly when no column carries it |
| ImageSearch.MnemonicLookupSucceeds | navo_utils/image.py:230-236 | with a valid cache and unique column names, indexing by a mnemonic never raises: it gives the first column with the mnemonic's UCD, or `None` exactly when none has it |
| ImageSearch.NameFindsColumn | navo_utils/image.py:236 | with unique column names, looking a column up by its own name finds that same column |
| ImageSearch.NamedItemIsUcdItem | navo_utils/image.py:232-236 | the base lookup by the mapped name of the first column with a UCD gives exactly that column |
| ImageSearch.NamedCellIsUcdCell | navo_utils/image.py:164-167 | in a row, the cell under the mapped name of the first column with a UCD is that column's cell |
| ImageSearch.MnemonicCell | navo_utils/image.py:162-168 | a row indexed by a mnemonic leaves the table alone and can only raise `KeyError` |
| ImageSearch.MnemonicCellFinds | navo_utils/image.py:162-168 | with a valid cache and unique column names, a row indexed by a mnemonic gives the cell of the first column with its UCD, or `None` exactly when none has it |
| ImageSearch.UcdCell | navo_utils/image.py:162-168 | the cell a UCD selects in a row is that row's cell of the first column carrying it, or `None` exactly when no column carries it |
| ImageSearch.NamedCell | navo_utils/image.py:167 | the row's cell in the column with the given name, or `KeyError` exactly when no column has that name |
| ImageSearch.RowGetItem | navo_utils/image.py:162-170 | a mnemonic goes through the map; a column name gives that column's cell; an index in `-n..n-1` gives that column's cell; only `KeyError` or `IndexError` is raised |
| ImageSearch.GetColumn | navo_utils/image.py:103-111 | a non-member mnemonic raises `ValueError`, and so, checked second, does a non-table; otherwise the first column with the member's UCD |
| ImageSearch.GetColumnName | navo_utils/image.py:113-118 | it fails exactly when `get_column` does; otherwise it gives the found column's name, or `None` exactly when none is found |
| ImageSearch.GetColumnNameMatchesUcdmap | navo_utils/image.py:113-118 | `ImageClass.get_column_name` and the table's map give the same name for every member |
| SpectraSearch.Query | navo_utils/spectra.py:23-72 | `SpectraClass.query` up to the network: it succeeds exactly when the coordinates wrap, the radius broadcasts and the format normalises, so a string or `SkyCoord` with a scalar radius and no format always succeeds; coordinate and radius failures are assertion failures, a bad format the format error; the plan holds the normalised service and one record per coordinate in order |
| SpectraSearch.QueryAgreesWithImage | navo_utils/spectra.py:40-70 | the spectra search normalises every input exactly as the image search does |
| SpectraSearch.OneSpectraSearch | navo_utils/spectra.py:74-89 | the request goes to the given service and uses a 30-second timeout and 3 tries; it fails exactly when the coordinates do not resolve, with that error; the parameters are only `POS`, `SIZE` (twice the radius) and `FORMAT`, present exactly when a format is given; a reader gets back the resolved position, the radius and the format |
| SpectraSearch.OneSpectraSearchLikeImage | navo_utils/spectra.py:74-89 | a spectra request succeeds exactly when the image request does, and goes to the same service with the same parameters and tries, at half the timeout |
| SpectraSearch.GetColumn | navo_utils/spectra.py:92-100 | a key that is not a `SpectraColumn` raises `ValueError`, and so, checked second, does a non-table; otherwise the column found for the member's utype |
| SpectraSearch.GetColumnName | navo_utils/spectra.py:102-107 | it fails exactly when `get_column` does; otherwise it gives the found column's name, or `None` when none is found |
| ConeSearch.RegistryKwargs | navo_utils/cone.py:22 | the registry is asked with the caller's keyword arguments plus `service_type='cone'`; a caller's own `service_type` is a duplicate keyword, so `TypeError` |
| ConeSearch.ServiceListOf | navo_utils/cone.py:20-33 | no services asks the registry; a row becomes a one-element list; a URL becomes a one-element list holding its `access_url` record; a list or table passes through |
| ConeSearch.RegistryServices | navo_utils/cone.py:20-24 | the registry's answer, row for row, or its error passed on |
| ConeSearch.RegistryAskedForCones | navo_utils/cone.py:22 | the registry query built for the cone search asks for the `conesearch` capability first and keeps every other argument |
| ConeSearch.Truncate | navo_utils/cone.py:35-37 | a list no longer than `max_services` is kept; a longer one is cut to its first `max_services - 1` elements, with Python's slice semantics for a negative stop |
| ConeSearch.SliceStop | navo_utils/cone.py:37 | the end position of Python's `s[0:stop]`: a stop within the length is kept, a larger one is the length, a negative one counts back from the end, and one reaching past the start is 0 |
| ConeSearch.TruncateKeepsOneFewer | navo_utils/cone.py:35-37 | with a positive limit, at most `max_services` services remain, and exactly `max_services` only when there were exactly that many |
| ConeSearch.TruncateIdempotent | navo_utils/cone.py:35-37 | with a positive limit, truncating twice is truncating once (with a limit of 0 or less a second truncation cuts again) |
| ConeSearch.DefaultTruncation | navo_utils/cone.py:15-37 | with the default `max_services=10`, a list of at most ten services is kept whole and a longer one is cut to its first nine |
| ConeSearch.Query | navo_utils/cone.py:15-51 | the services are checked first, then the coordinates, then the radius, and a coordinate or radius failure is the assertion failure; the plan holds the truncated services and one `{coords, radius}` record per coordinate, index-aligned |
| ConeSearch.QueryAlignsWithImage | navo_utils/cone.py:39-51 | the cone search's coordinate and radius records are the image search's records without the format |
| ConeSearch.ResolveConeCoords | navo_utils/cone.py:55-58 | any tuple or a two-element list is parsed from its first two items, with `IndexError` for a tuple of fewer than two; a `SkyCoord` is kept; anything else (a string, a list of another length, a number, any other object) raises `AssertionError` |
| ConeSearch.ConeCoordsVersusImage | navo_utils/cone.py:56-58 | a string the image search parses is rejected by the cone search; a pair or a `SkyCoord` resolves alike in both |
| ConeSearch.ConeParams | navo_utils/cone.py:60 | the cone request has exactly the keys `RA`, `DEC`, `SR` |
| ConeSearch.ConeParamsRoundTrip | navo_utils/cone.py:60 | a reader of a cone search request (section 2.1 of Simple Cone Search 1.03) recovers the position and the radius |
| ConeSearch.SrIsHalfOfSize | navo_utils/cone.py:60 | `SR` is the radius itself, half the `SIZE` an image search sends for the same radius |
| ConeSearch.OneConeSearch | navo_utils/cone.py:55-63 | one cone search fails exactly when its coordinates do not resolve, with that error; otherwise the request goes to the service, its parameters are exactly `RA`, `DEC` and `SR`, and a reader gets back the position and the radius |
| ConeSearch.ConeTableFromResponse | navo_utils/cone.py:67-93 | on both paths `meta['xml_raw']` is `[content]` and `meta['url']` is `[url]`; a parsed table keeps its columns and other metadata; a failed parse gives an empty masked table with only those two entries |
| ConeSearch.EnvelopeOnBothPaths | navo_utils/cone.py:76-93 | the envelope is the same whether or not the response parsed, and the failure table has no rows |
| ConeSearch.EnvelopeKeepsBody | navo_utils/cone.py:84 | an application of `Tables.SvalOfEncoded` to the envelope: the raw body stored under `xml_raw` decodes back to the response text |

## Left out

- Network I/O is not modelled. This covers `utils.try_query`, `utils.query_loop`, the registry's `_request` and the cone's GET request, with their retries, timeouts and HTTP methods. A search stops at the request it would send (service, parameters, timeout, retries). The registry query is a function parameter from keyword arguments to result rows.
- VOTABLE parsing (`Table.read`) is not modelled; it is an abstract `Result<Table>` given to the post-processing.
- `parse_coordinates` and the `"{} {}".format(...)` rendering of a pair are the parameters of `CoordParser`. `SkyCoord` is a pair of reals.
- `utils.find_column_by_utype` is not defined in `navo_utils/utils.py`; it is a function parameter of `SpectraSearch.GetColumn`.
- Floating point is not modelled. Radii are reals, so `float(radius)` on a text radius and the decimal rendering of `POS` and `SIZE` by `sval` are left out. `POS` is a position and `SIZE` is a number of degrees.
- `str.lower` is modelled on ASCII only. Non-ASCII case mappings are not part of this model.
- `QueryInputs.ParseText`: a failing coordinate parse is one error kind, `CoordinateError`, not astropy's exception classes.
- `ImageSearch.MnemonicLookupSucceeds`, `ImageSearch.MnemonicCellFinds`: proved for tables with unique column names, which astropy enforces. Duplicate names are not modelled.
- `ImageTable.get_ucd_column` (navo_utils/image.py:215-220) is not modelled. It compares the bound method `get_ucd_column_name` with `None` instead of calling it, so it always indexes the table with a method object.
- `RegistryClass.query` with a `method` argument (navo_utils/registry.py:143-144) is not modelled. It reads the undefined name `kewargs` and would raise `NameError`. No request path of `RegistryClass.query` is modelled; only `_build_adql` is.
- The emptiness tests `is not ""` in `_build_adql` are modelled as string inequality, which is what they evidently intend.
- `ConeSearch.ServiceListOf`: a single `access_url` dictionary given as the cone's services reaches the `else: pass` branch and is handed on as it is (navo_utils/cone.py:31-33). Slicing it raises `TypeError`, and iterating it in `query_loop`, which is not part of this model, would yield its keys rather than services. The model reports it as `TypeError` on every path.
- The truncation warning, the debug prints and `Tracer` are output only.
- Default arguments are not modelled as such: `radius='0.000001'` of the image and spectra `query` (navo_utils/image.py:25, navo_utils/spectra.py:23) and `max_services=10` of the cone `query` (navo_utils/cone.py:15) are ordinary parameters of the `Query` functions, so every call gives them. `ConeSearch.DefaultTruncation` states what the cone default does.
- Keys other than a column name, an integer index or an `ImageColumn` are not modelled: slices, lists of names and boolean masks that `ImageTable.__getitem__` and `ImRow.__getitem__` hand on to astropy (navo_utils/image.py:170, navo_utils/image.py:238) are astropy's behaviour, not this package's.
- The `ImRow`, `ImColumn`, `ImMaskedColumn`, `ImTableColumns` and `ImTableFormatter` subclasses carry no behaviour of their own beyond `ImRow.__getitem__`.
- `SpectraClass.query` returns `query_loop`'s results unwrapped, unlike the image search. Only the plan it hands to `query_loop` is modelled.
- `tap.py`, `image_orig_keep.py`, `workshop_utils/utils.py` and the test files are not part of this model. They are a thin TAP wrapper, a superseded request builder, display helpers, and tests against live services.

=== FILE: adql.dfy ===
/** The registry's ADQL builder (`RegistryClass._build_adql`): it classifies a
    free-text service type into one of four capability types and assembles a
    `select ... where ... order by ...` query against the resource registry. */
module Adql {
  import opened Text

  /** The four capability types the registry query can ask for. */
  datatype CapType = SimpleImageAccess | SimpleSpectralAccess | ConeSearch | TableAccess

  /** The `cap_type` value the registry stores for each capability type. */
  function CapTypeName(c: CapType): (r: string)
    ensures |r| > 0
  {
    match c
    case SimpleImageAccess => "simpleimageaccess"
    case SimpleSpectralAccess => "simplespectralaccess"
    case ConeSearch => "conesearch"
    case TableAccess => "tableaccess"
  }

  /** Maps a free-text service type to a capability type: the first of
      "image", "spectr", "cone" found in its lower-cased text decides, and
      anything else asks for table access. */
  function ClassifyServiceType(serviceType: string): (r: CapType)
    ensures r == SimpleImageAccess <==> Contains(Lower(serviceType), "image")
    ensures r == SimpleSpectralAccess <==>
      !Contains(Lower(serviceType), "image") && Contains(Lower(serviceType), "spectr")
    ensures r == ConeSearch <==>
      !Contains(Lower(serviceType), "image") && !Contains(Lower(serviceType), "spectr")
      && Contains(Lower(serviceType), "cone")
  {
    var l := Lower(serviceType);
    if Contains(l, "image") then SimpleImageAccess
    else if Contains(l, "spectr") then SimpleSpectralAccess
    else if Contains(l, "cone") then ConeSearch
    else TableAccess
  }

  /** Texts that agree once lower-cased are classified alike. */
  lemma ClassifyIgnoresCase(a: string, b: string)
    requires Lower(a) == Lower(b)
    ensures ClassifyServiceType(a) == ClassifyServiceType(b)
  {
  }

  /** Classifying the lower-cased text gives the same answer. */
  lemma ClassifyLowered(s: string)
    ensures ClassifyServiceType(Lower(s)) == ClassifyServiceType(s)
  {
    LowerIdempotent(s);
  }

  /** The capability type names are already lower-case. */
  lemma CapTypeNameLower(c: CapType)
    ensures Lower(CapTypeName(c)) == CapTypeName(c)
  {
    LowerOfLower(CapTypeName(c));
  }

  // One lemma per search word, each about the fixed capability type names,
  // keeps every proof small for the solver.

  /** Which capability type names hold "image". */
  lemma ImageWord(n: string, c: CapType)
    requires n == CapTypeName(c)
    ensures Contains(n, "image") <==> c == SimpleImageAccess
  {
    match c
    case SimpleImageAccess => assert OccursAt(n, "image", 6);
    case SimpleSpectralAccess => assert n == "simplespectralaccess"; NotContainedChar(n, "image", 'g');
    case ConeSearch => assert n == "conesearch"; NotContainedChar(n, "image", 'g');
    case TableAccess => assert n == "tableaccess"; NotContainedChar(n, "image", 'g');
  }

  /** Which capability type names hold "spectr". */
  lemma SpectrWord(n: string, c: CapType)
    requires n == CapTypeName(c)
    ensures Contains(n, "spectr") <==> c == SimpleSpectralAccess
  {
    match c
    case SimpleImageAccess => assert n == "simpleimageaccess"; NotContainedChar(n, "spectr", 'r');
    case SimpleSpectralAccess => assert OccursAt(n, "spectr", 6);
    case ConeSearch => assert n == "conesearch"; NotContainedChar(n, "spectr", 'p');
    case TableAccess => assert n == "tableaccess"; NotContainedChar(n, "spectr", 'p');
  }

  /** Which capability type names hold "cone". */
  lemma ConeWord(n: string, c: CapType)
    requires n == CapTypeName(c)
    ensures Contains(n, "cone") <==> c == ConeSearch
  {
    match c
    case SimpleImageAccess => assert n == "simpleimageaccess"; NotContainedChar(n, "cone", 'o');
    case SimpleSpectralAccess => assert n == "simplespectralaccess"; NotContainedChar(n, "cone", 'o');
    case ConeSearch => assert OccursAt(n, "cone", 0);
    case TableAccess => assert n == "tableaccess"; NotContainedChar(n, "cone", 'o');
  }

  /** Each capability type's own name is classified as that type, so passing a
      registry `cap_type` value back in asks for the same capability. */
  lemma ClassifyCapTypeName(c: CapType)
    ensures ClassifyServiceType(CapTypeName(c)) == c
  {
    var n := CapTypeName(c);
    CapTypeNameLower(c);
    ImageWord(n, c);
    SpectrWord(n, c);
    ConeWord(n, c);
  }

  // ---------------------------------------------------------------------------
  // Keyword arguments
  // ---------------------------------------------------------------------------

  /** The arguments `_build_adql` recognises, after defaults are applied. */
  datatype AdqlArgs = AdqlArgs(
    serviceType: string,
    keyword: string,
    waveband: string,
    source: string,
    orderBy: string,
    logicString: string)

  /** The keyword names `_build_adql` reads. */
  const Recognised: set<string> :=
    {"service_type", "keyword", "waveband", "source", "order_by", "logic_string"}

  /** `kwargs.get(key, default)`. */
  function ArgOr(kwargs: map<string, string>, key: string, default: string): string
  {
    if key in kwargs then kwargs[key] else default
  }

  /** Reads the recognised keyword arguments; every one defaults to the empty
      string except `logic_string`, which defaults to `" and "`. */
  function ParseArgs(kwargs: map<string, string>): (r: AdqlArgs)
    ensures "service_type" in kwargs ==> r.serviceType == kwargs["service_type"]
    ensures "keyword" in kwargs ==> r.keyword == kwargs["keyword"]
    ensures "waveband" in kwargs ==> r.waveband == kwargs["waveband"]
    ensures "source" in kwargs ==> r.source == kwargs["source"]
    ensures "order_by" in kwargs ==> r.orderBy == kwargs["order_by"]
    ensures "logic_string" in kwargs ==> r.logicString == kwargs["logic_string"]
    ensures "service_type" !in kwargs ==> r.serviceType == ""
    ensures "keyword" !in kwargs ==> r.keyword == ""
    ensures "waveband" !in kwargs ==> r.waveband == ""
    ensures "source" !in kwargs ==> r.source == ""
    ensures "order_by" !in kwargs ==> r.orderBy == ""
    ensures "logic_string" !in kwargs ==> r.logicString == " and "
    ensures kwargs.Keys !! Recognised ==> r == AdqlArgs("", "", "", "", "", " and ")
  {
    AdqlArgs(
      ArgOr(kwargs, "service_type", ""),
      ArgOr(kwargs, "keyword", ""),
      ArgOr(kwargs, "waveband", ""),
      ArgOr(kwargs, "source", ""),
      ArgOr(kwargs, "order_by", ""),
      ArgOr(kwargs, "logic_string", " and "))
  }

  // ---------------------------------------------------------------------------
  // Query text
  // ---------------------------------------------------------------------------

  /** The select list and joins that every registry query starts with. */
  const QueryRetcols: string :=
    "\n          select res.waveband,res.short_name,cap.ivoid,res.res_description,\n"
    + "          int.access_url, res.reference_url\n"
    + "           from rr.capability cap\n"
    + "           natural join rr.resource res\n"
    + "           natural join rr.interface int\n"
    + "           "

  function CapClause(c: CapType): string
  {
    "cap.cap_type='" + CapTypeName(c) + "'"
  }

  function SourceClause(source: string): string
  {
    "cap.ivoid like '%" + source + "%'"
  }

  function WavebandClause(waveband: string): string
  {
    "res.waveband like '%" + waveband + "%'"
  }

  /** The fixed text around the three keyword slots of the keyword clause. */
  const KeywordOpen: string := "\n             (res.res_description like '%"
  const KeywordAfterDescription: string := "%' or\n            res.res_title like '%"
  const KeywordAfterTitle: string := "%' or\n            cap.ivoid like '%"
  const KeywordClose: string := "%') \n            "

  /** The keyword is matched against the description, the title and the ivoid. */
  function KeywordClause(keyword: string): (r: string)
    ensures |r| == 133 + 3 * |keyword|
    ensures r[42..42 + |keyword|] == keyword
    ensures r[81 + |keyword|..81 + 2 * |keyword|] == keyword
    ensures r[116 + 2 * |keyword|..116 + 3 * |keyword|] == keyword
  {
    KeywordOpen + keyword + KeywordAfterDescription + keyword + KeywordAfterTitle + keyword + KeywordClose
  }

  /** The clause is one fixed template with the keyword substituted at three
      places: the description, the title and the ivoid patterns; all other
      text is the same whatever the keyword. */
  lemma KeywordClauseThreeTimes(keyword: string)
    ensures var q := KeywordClause("");
      KeywordClause(keyword) == q[..42] + keyword + q[42..81] + keyword + q[81..116] + keyword + q[116..]
  {
    KeywordPieceLengths();
    Substitute(KeywordOpen, KeywordAfterDescription, KeywordAfterTitle, KeywordClose, keyword);
  }

  /** The lengths of the fixed pieces of the keyword clause. */
  lemma KeywordPieceLengths()
    ensures |KeywordOpen| == 42 && |KeywordAfterDescription| == 39
    ensures |KeywordAfterTitle| == 35 && |KeywordClose| == 17
  {
  }

  /** Filling three slots of a template `a _ b _ c _ d` with `k`: the fixed
      pieces are read back from the template filled with the empty string. */
  lemma Substitute(a: string, b: string, c: string, d: string, k: string)
    ensures var q := a + "" + b + "" + c + "" + d;
      a + k + b + k + c + k + d
        == q[..|a|] + k + q[|a|..|a| + |b|] + k + q[|a| + |b|..|a| + |b| + |c|] + k + q[|a| + |b| + |c|..]
  {
    var q := a + "" + b + "" + c + "" + d;
    assert q == a + b + c + d;
    assert q[..|a|] == a;
    assert q[|a|..|a| + |b|] == b;
    assert q[|a| + |b|..|a| + |b| + |c|] == c;
    assert q[|a| + |b| + |c|..] == d;
  }

  /** `wheres.append(clause)` when the argument was given. */
  function AppendIf(wheres: seq<string>, arg: string, clause: string): seq<string>
  {
    if arg != "" then wheres + [clause] else wheres
  }

  /** The WHERE clauses in the order `_build_adql` appends them. */
  function WhereClauses(a: AdqlArgs): (r: seq<string>)
    ensures |r| == 1 + (if a.source != "" then 1 else 0)
      + (if a.waveband != "" then 1 else 0) + (if a.keyword != "" then 1 else 0)
    ensures r[0] == CapClause(ClassifyServiceType(a.serviceType))
    ensures a.source != "" ==> r[1] == SourceClause(a.source)
    ensures a.waveband != "" ==> r[|r| - (if a.keyword != "" then 2 else 1)] == WavebandClause(a.waveband)
    ensures a.keyword != "" ==> r[|r| - 1] == KeywordClause(a.keyword)
  {
    var w0 := [CapClause(ClassifyServiceType(a.serviceType))];
    var w1 := AppendIf(w0, a.source, SourceClause(a.source));
    var w2 := AppendIf(w1, a.waveband, WavebandClause(a.waveband));
    AppendIf(w2, a.keyword, KeywordClause(a.keyword))
  }

  /** The `order by` suffix, present only for a non-empty `order_by`. */
  function OrderClause(orderBy: string): (r: string)
    ensures r == "" <==> orderBy == ""
    ensures orderBy != "" ==> |r| == 9 + |orderBy| && r[..9] == "order by " && r[9..] == orderBy
  {
    if orderBy != "" then "order by " + orderBy else ""
  }

  /** `sep + clause` when the argument was given, nothing otherwise. */
  function Optional(sep: string, arg: string, clause: string): string
  {
    if arg == "" then "" else sep + clause
  }

  /** The query for already-parsed arguments. */
  function BuildAdqlFromArgs(a: AdqlArgs): string
  {
    QueryRetcols + "where " + Join(a.logicString, WhereClauses(a)) + OrderClause(a.orderBy)
  }

  /** `_build_adql(**kwargs)`. The capability clause always comes first; the
      source, waveband and keyword clauses follow in that order, each only when
      its argument is non-empty and each preceded by `logic_string`; the
      `order by` suffix follows with no separator before it. */
  function BuildAdql(kwargs: map<string, string>): (r: string)
    ensures var a := ParseArgs(kwargs);
      r == QueryRetcols + "where "
        + CapClause(ClassifyServiceType(a.serviceType))
        + Optional(a.logicString, a.source, SourceClause(a.source))
        + Optional(a.logicString, a.waveband, WavebandClause(a.waveband))
        + Optional(a.logicString, a.keyword, KeywordClause(a.keyword))
        + OrderClause(a.orderBy)
  {
    var a := ParseArgs(kwargs);
    WhereBody(a);
    Regroup(QueryRetcols + "where ", Join(a.logicString, WhereClauses(a)), OrderClause(a.orderBy),
      CapClause(ClassifyServiceType(a.serviceType)),
      Optional(a.logicString, a.source, SourceClause(a.source)),
      Optional(a.logicString, a.waveband, WavebandClause(a.waveband)),
      Optional(a.logicString, a.keyword, KeywordClause(a.keyword)));
    BuildAdqlFromArgs(a)
  }

  /** Regrouping the query text around its joined WHERE body. */
  lemma Regroup(head: string, body: string, tail: string, c0: string, c1: string, c2: string, c3: string)
    requires body == c0 + c1 + c2 + c3
    ensures head + body + tail == head + c0 + c1 + c2 + c3 + tail
  {
  }

  /** Appending a clause when its argument is present adds the separator and
      the clause to the joined text. */
  lemma JoinAppendIf(sep: string, wheres: seq<string>, arg: string, clause: string)
    requires |wheres| > 0
    ensures |AppendIf(wheres, arg, clause)| > 0
    ensures Join(sep, AppendIf(wheres, arg, clause)) == Join(sep, wheres) + Optional(sep, arg, clause)
  {
    if arg != "" {
      assert AppendIf(wheres, arg, clause) == wheres + [clause];
      JoinSnoc(sep, wheres, clause);
    } else {
      assert AppendIf(wheres, arg, clause) == wheres;
    }
  }

  /** Joining the WHERE clauses gives the capability clause followed by each
      present clause with its separator. */
  lemma WhereBody(a: AdqlArgs)
    ensures Join(a.logicString, WhereClauses(a)) ==
      CapClause(ClassifyServiceType(a.serviceType))
      + Optional(a.logicString, a.source, SourceClause(a.source))
      + Optional(a.logicString, a.waveband, WavebandClause(a.waveband))
      + Optional(a.logicString, a.keyword, KeywordClause(a.keyword))
  {
    var sep := a.logicString;
    var cap := CapClause(ClassifyServiceType(a.serviceType));
    var o1 := Optional(sep, a.source, SourceClause(a.source));
    var o2 := Optional(sep, a.waveband, WavebandClause(a.waveband));
    var o3 := Optional(sep, a.keyword, KeywordClause(a.keyword));
    var w0 := [cap];
    var w1 := AppendIf(w0, a.source, SourceClause(a.source));
    var w2 := AppendIf(w1, a.waveband, WavebandClause(a.waveband));
    JoinAppendIf(sep, w0, a.source, SourceClause(a.source));
    JoinAppendIf(sep, w1, a.waveband, WavebandClause(a.waveband));
    JoinAppendIf(sep, w2, a.keyword, KeywordClause(a.keyword));
    assert Join(sep, w0) == cap;
    assert Join(sep, WhereClauses(a)) == cap + o1 + o2 + o3;
  }

  /** The WHERE clause list: the capability clause first, then one clause per
      non-empty argument. */
  lemma WhereClausesCount(a: AdqlArgs)
    ensures WhereClauses(a)[0] == CapClause(ClassifyServiceType(a.serviceType))
    ensures |WhereClauses(a)| == 1 + (if a.source != "" then 1 else 0)
      + (if a.waveband != "" then 1 else 0) + (if a.keyword != "" then 1 else 0)
  {
  }

  /** Keyword arguments `_build_adql` does not recognise leave the query unchanged. */
  lemma UnrecognisedKeywordIgnored(kwargs: map<string, string>, key: string, val: string)
    requires key !in Recognised
    ensures BuildAdql(kwargs[key := val]) == BuildAdql(kwargs)
  {
    assert ParseArgs(kwargs[key := val]) == ParseArgs(kwargs);
  }

  /** Service types that agree once lower-cased give the same query. */
  lemma BuildAdqlIgnoresServiceTypeCase(kwargs: map<string, string>, other: string)
    requires "service_type" in kwargs
    requires Lower(other) == Lower(kwargs["service_type"])
    ensures BuildAdql(kwargs["service_type" := other]) == BuildAdql(kwargs)
  {
    var a := ParseArgs(kwargs);
    var b := ParseArgs(kwargs["service_type" := other]);
    SetServiceType(kwargs, other);
    ClassifyIgnoresCase(other, kwargs["service_type"]);
    SameCapSameQuery(a, b);
  }

  /** Setting `service_type` changes only the service type that is read. */
  lemma SetServiceType(kwargs: map<string, string>, other: string)
    ensures ParseArgs(kwargs["service_type" := other]) == ParseArgs(kwargs).(serviceType := other)
  {
  }

  /** Arguments that differ only in a service type classified alike give the
      same query. */
  lemma SameCapSameQuery(a: AdqlArgs, b: AdqlArgs)
    requires b == a.(serviceType := b.serviceType)
    requires ClassifyServiceType(a.serviceType) == ClassifyServiceType(b.serviceType)
    ensures BuildAdqlFromArgs(a) == BuildAdqlFromArgs(b)
  {
    assert WhereClauses(b) == WhereClauses(a);
  }
}

=== FILE: cone.dfy ===
/** The cone search (`ConeClass`): which services to ask, how many of them,
    the per-position request of a Simple Cone Search, and the table built from
    each response. */
module ConeSearch {
  import opened Wrappers
  import opened Text
  import opened Tables
  import opened QueryInputs
  import Adql

  // ---------------------------------------------------------------------------
  // Services
  // ---------------------------------------------------------------------------

  /** The registry lookup (`Registry.query`) as seen from here: the keyword
      arguments it is called with (from which it builds its ADQL query with
      `_build_adql`), and the rows of service records it returns or its failure. */
  type RegistryLookup = map<string, string> -> Result<seq<map<string, string>>>

  /** The keyword arguments `Registry.query(service_type='cone', **kwargs)`
      receives; passing `service_type` twice is a `TypeError`. */
  function RegistryKwargs(kwargs: map<string, string>): (r: Result<map<string, string>>)
    ensures r.Err? <==> "service_type" in kwargs
    ensures r.Err? ==> r.error == TypeError
    ensures r.Ok? ==> r.value.Keys == kwargs.Keys + {"service_type"} && r.value["service_type"] == "cone"
    ensures r.Ok? ==> forall k :: k in kwargs ==> r.value[k] == kwargs[k]
  {
    if "service_type" in kwargs then Err(TypeError)
    else Ok(kwargs["service_type" := "cone"])
  }

  /** The service list of `ConeClass.query` before truncation: the registry's
      cone services when none is given, a one-element list for a single row or
      URL, and a given list or table as it is. */
  function ServiceListOf(services: Service, kwargs: map<string, string>, registry: RegistryLookup)
    : (r: Result<seq<Service>>)
    ensures services.Url? ==> r == Ok([Record(map["access_url" := services.url])])
    ensures services.TableRow? ==> r == Ok([services])
    ensures services.ServiceList? ==> r == Ok(services.items)
    ensures services.TableRows? ==> (r.Ok? && |r.value| == |services.rows|
      && forall i :: 0 <= i < |services.rows| ==> r.value[i] == TableRow(services.rows[i]))
    ensures services.Record? ==> r == Err(TypeError)
    ensures services.NoService? ==> r == RegistryServices(kwargs, registry)
    ensures r.Ok? ==> forall i :: 0 <= i < |r.value| ==> !r.value[i].Url? || services.ServiceList?
  {
    match services
    case NoService => RegistryServices(kwargs, registry)
    case TableRow(_) => Ok([services])
    case Url(u) => Ok([AsServiceRecord(services)])
    case TableRows(rows) => Ok(RowsOf(rows))
    case ServiceList(items) => Ok(items)
    case Record(_) => Err(TypeError)
  }

  /** `Registry.query(service_type='cone', **kwargs)`: the registry's rows
      for the query built from the caller's arguments with the service type
      set to "cone", one service per row. */
  function RegistryServices(kwargs: map<string, string>, registry: RegistryLookup): (r: Result<seq<Service>>)
    ensures "service_type" in kwargs ==> r == Err(TypeError)
    ensures "service_type" !in kwargs ==>
      var found := registry(kwargs["service_type" := "cone"]);
      (r.Ok? <==> found.Ok?) && (r.Err? ==> r.error == found.error)
      && (r.Ok? ==> |r.value| == |found.value| && forall i :: 0 <= i < |found.value| ==> r.value[i] == TableRow(found.value[i]))
    ensures r.Ok? ==> forall i :: 0 <= i < |r.value| ==> r.value[i].TableRow?
  {
    match RegistryKwargs(kwargs)
    case Err(e) => Err(e)
    case Ok(args) =>
      match registry(args)
      case Err(e) => Err(e)
      case Ok(rows) => Ok(RowsOf(rows))
  }

  /** The rows of a registry table, one service each. */
  function RowsOf(rows: seq<map<string, string>>): (r: seq<Service>)
    ensures |r| == |rows|
    ensures forall i :: 0 <= i < |rows| ==> r[i] == TableRow(rows[i]) && AccessUrl(r[i]) == AccessUrl(TableRow(rows[i]))
  {
    seq(|rows|, i requires 0 <= i < |rows| => TableRow(rows[i]))
  }

  /** "cone" is classified as the cone search capability. */
  lemma ClassifyCone(n: string)
    requires n == "cone"
    ensures Adql.ClassifyServiceType(n) == Adql.ConeSearch
  {
    LowerOfLower(n);
    NotContainedChar(n, "image", 'i');
    NotContainedChar(n, "spectr", 's');
    assert OccursAt(n, "cone", 0);
  }

  /** When no service is given, the registry is asked for cone search
      services: the query's first WHERE clause selects that capability, and the
      caller's other registry arguments are passed on unchanged. */
  lemma RegistryAskedForCones(kwargs: map<string, string>)
    requires "service_type" !in kwargs
    ensures var a := Adql.ParseArgs(RegistryKwargs(kwargs).value);
      Adql.ClassifyServiceType(a.serviceType) == Adql.ConeSearch
      && Adql.WhereClauses(a)[0] == Adql.CapClause(Adql.ConeSearch)
      && a == Adql.ParseArgs(kwargs).(serviceType := "cone")
  {
    var a := Adql.ParseArgs(RegistryKwargs(kwargs).value);
    ClassifyCone(a.serviceType);
    Adql.WhereClausesCount(a);
  }

  /** Python's `s[0:stop]` end position for a sequence of length `n`: a
      negative stop counts from the end. */
  function SliceStop(n: nat, stop: int): (r: nat)
    ensures r <= n
    ensures 0 <= stop <= n ==> r == stop
    ensures stop > n ==> r == n
    ensures stop < 0 && -stop <= n ==> r + -stop == n
    ensures stop < 0 && -stop > n ==> r == 0
  {
    if stop < 0 then (if n + stop < 0 then 0 else n + stop)
    else if stop < n then stop
    else n
  }

  /** The truncation of `ConeClass.query`: more than `maxServices` services
      are cut to `services[0:maxServices-1]`. */
  function Truncate<T>(services: seq<T>, maxServices: int): (r: seq<T>)
    ensures r <= services
    ensures |services| <= maxServices ==> r == services
    ensures |services| > maxServices >= 1 ==> |r| == maxServices - 1
    ensures |services| > maxServices && maxServices < 1 ==>
      |r| == (if |services| + maxServices - 1 < 0 then 0 else |services| + maxServices - 1)
  {
    if |services| > maxServices then services[..SliceStop(|services|, maxServices - 1)]
    else services
  }

  /** The default `max_services` of `ConeClass.query`. */
  const DefaultMaxServices: int := 10

  /** With the default limit at most nine services are asked: a list of ten
      is kept whole, and a longer one is cut to its first nine. */
  lemma DefaultTruncation<T>(services: seq<T>)
    ensures |services| <= 10 ==> Truncate(services, DefaultMaxServices) == services
    ensures |services| > 10 ==> Truncate(services, DefaultMaxServices) == services[..9]
  {
  }

  /** Whenever truncation happens with a positive limit, one service fewer
      than the limit is kept, so `maxServices` services are never all asked. */
  lemma TruncateKeepsOneFewer<T>(services: seq<T>, maxServices: int)
    requires maxServices >= 1
    ensures |Truncate(services, maxServices)| < maxServices
      || (|services| == maxServices && Truncate(services, maxServices) == services)
    ensures |Truncate(services, maxServices)| <= maxServices
  {
  }

  /** Truncating a second time with the same limit changes nothing. */
  lemma TruncateIdempotent<T>(services: seq<T>, maxServices: int)
    requires maxServices >= 1
    ensures Truncate(Truncate(services, maxServices), maxServices) == Truncate(services, maxServices)
  {
  }

  // ---------------------------------------------------------------------------
  // ConeClass.query
  // ---------------------------------------------------------------------------

  /** The parameters of one position's cone search. */
  datatype ConeSearchParams = ConeSearchParams(coords: CoordValue, radius: real)

  /** The normalised cone query: the services to ask and one parameter record
      per position. */
  datatype ConePlan = ConePlan(services: seq<Service>, params: seq<ConeSearchParams>)

  /** `ConeClass.query` up to the network call. Checks run in the source's
      order: services, coordinates, radius. */
  function Query(coords: CoordValue, radius: RadiusArg, services: Service, maxServices: int,
                 kwargs: map<string, string>, registry: RegistryLookup)
    : (r: Result<ConePlan>)
    ensures ServiceListOf(services, kwargs, registry).Err? ==> r == Err(ServiceListOf(services, kwargs, registry).error)
    ensures r.Ok? <==> (ServiceListOf(services, kwargs, registry).Ok? && WrapCoords(coords).Ok?
      && BroadcastRadius(radius, |WrapCoords(coords).value|).Ok?)
    ensures r.Ok? ==> r.value.services == Truncate(ServiceListOf(services, kwargs, registry).value, maxServices)
    ensures r.Ok? ==> (|r.value.params| == |WrapCoords(coords).value|
      && forall i :: 0 <= i < |r.value.params| ==>
        r.value.params[i] == ConeSearchParams(WrapCoords(coords).value[i], BroadcastRadius(radius, |r.value.params|).value[i]))
    ensures ServiceListOf(services, kwargs, registry).Ok? && WrapCoords(coords).Err? ==> r == Err(AssertionFailed)
    ensures (ServiceListOf(services, kwargs, registry).Ok? && WrapCoords(coords).Ok?
      && BroadcastRadius(radius, |WrapCoords(coords).value|).Err?) ==> r == Err(AssertionFailed)
  {
    match ServiceListOf(services, kwargs, registry)
    case Err(e) => Err(e)
    case Ok(list) =>
      var kept := Truncate(list, maxServices);
      match WrapCoords(coords)
      case Err(e) => Err(e)
      case Ok(cs) =>
        match BroadcastRadius(radius, |cs|)
        case Err(e) => Err(e)
        case Ok(radii) =>
          Ok(ConePlan(kept, seq(|cs|, i requires 0 <= i < |cs| => ConeSearchParams(cs[i], radii[i]))))
  }

  /** A cone query normalises coordinates and radii as the image query does:
      the same positions, the same radii, in the same order. */
  lemma QueryAlignsWithImage(coords: CoordValue, radius: RadiusArg, services: Service, maxServices: int,
                             kwargs: map<string, string>, registry: RegistryLookup)
    requires Query(coords, radius, services, maxServices, kwargs, registry).Ok?
    ensures var cone := Query(coords, radius, services, maxServices, kwargs, registry).value.params;
      var image := NormaliseQuery(services, coords, radius, None);
      image.Ok? && |image.value.params| == |cone|
      && forall i :: 0 <= i < |cone| ==>
        image.value.params[i].coords == cone[i].coords && image.value.params[i].radius == cone[i].radius
  {
  }

  // ---------------------------------------------------------------------------
  // _one_cone_search
  // ---------------------------------------------------------------------------

  /** The coordinate resolution of `_one_cone_search`: any tuple, or a list of
      two, is joined from its first two items and parsed (a tuple of fewer
      than two items raises `IndexError`); after that only a SkyCoord passes
      the assertion, so a plain string is rejected. */
  function ResolveConeCoords(c: CoordValue, p: CoordParser): (r: Result<SkyCoord>)
    ensures c.Sky? ==> r == Ok(c.coord)
    ensures c.Text? ==> r == Err(AssertionFailed)
    ensures IsPair(c) ==> r == ParseText(p, p.show(c.items[0]) + " " + p.show(c.items[1]))
    ensures c.TupleOf? && |c.items| < 2 ==> r == Err(IndexError)
    ensures c.TupleOf? && |c.items| > 2 ==> r == ParseText(p, p.show(c.items[0]) + " " + p.show(c.items[1]))
    ensures c.ListOf? && |c.items| != 2 ==> r == Err(AssertionFailed)
    ensures c.Number? || c.Unsupported? ==> r == Err(AssertionFailed)
    ensures r.Ok? ==> c.Sky? || c.TupleOf? || IsPair(c)
  {
    if c.TupleOf? || (c.ListOf? && |c.items| == 2) then
      if |c.items| < 2 then Err(IndexError)
      else ParseText(p, p.show(c.items[0]) + " " + p.show(c.items[1]))
    else if c.Sky? then Ok(c.coord)
    else Err(AssertionFailed)
  }

  /** Unlike the image search, the cone search does not parse a string
      position; on pairs and SkyCoords the two agree. */
  lemma ConeCoordsVersusImage(c: CoordValue, p: CoordParser)
    ensures c.Text? ==> ResolveConeCoords(c, p).Err? && ResolveSearchCoords(c, p) == ParseText(p, c.s)
    ensures IsPair(c) || c.Sky? ==> ResolveConeCoords(c, p) == ResolveSearchCoords(c, p)
  {
  }

  /** The query parameters of one cone search: RA, DEC and SR in degrees. */
  function ConeParams(c: SkyCoord, radius: real): (r: map<string, Param>)
    ensures r.Keys == {"RA", "DEC", "SR"}
  {
    map["RA" := Degrees(c.ra), "DEC" := Degrees(c.dec), "SR" := Degrees(radius)]
  }

  /** How a service reads those parameters (section 2.1 of the IVOA Simple
      Cone Search 1.03 recommendation): RA and DEC give the centre and SR the
      radius of the cone, all in decimal degrees. */
  function ReadConeParams(params: map<string, Param>): Option<(SkyCoord, real)>
  {
    if "RA" in params && params["RA"].Degrees?
      && "DEC" in params && params["DEC"].Degrees?
      && "SR" in params && params["SR"].Degrees?
    then Some((SkyCoord(params["RA"].x, params["DEC"].x), params["SR"].x))
    else None
  }

  /** The service reads back the position and the radius that were asked for. */
  lemma ConeParamsRoundTrip(c: SkyCoord, radius: real)
    ensures ReadConeParams(ConeParams(c, radius)) == Some((c, radius))
  {
  }

  /** For the same position and radius, a cone search sends the radius itself
      as SR while an image search sends twice it as SIZE. */
  lemma SrIsHalfOfSize(c: SkyCoord, radius: real, format: Option<string>)
    ensures 2.0 * ConeParams(c, radius)["SR"].x == SiaParams(c, radius, format)["SIZE"].x
    ensures ReadConeParams(ConeParams(c, radius)).value.1 == ReadSiaParams(SiaParams(c, radius, format)).value.1
  {
    SiaParamsRoundTrip(c, radius, format);
  }

  /** The request one cone search sends. */
  datatype ConeRequest = ConeRequest(service: Service, params: map<string, Param>)

  /** `_one_cone_search` up to the network call. */
  function OneConeSearch(p: ConeSearchParams, service: Service, parser: CoordParser): (r: Result<ConeRequest>)
    ensures r.Ok? <==> ResolveConeCoords(p.coords, parser).Ok?
    ensures r.Err? ==> r.error == ResolveConeCoords(p.coords, parser).error
    ensures r.Ok? ==> (r.value.service == service
      && ReadConeParams(r.value.params) == Some((ResolveConeCoords(p.coords, parser).value, p.radius)))
    ensures r.Ok? ==> r.value.params.Keys == {"RA", "DEC", "SR"}
    ensures r.Ok? ==> r.value.params == ConeParams(ResolveConeCoords(p.coords, parser).value, p.radius)
  {
    match ResolveConeCoords(p.coords, parser)
    case Err(e) => Err(e)
    case Ok(c) =>
      ConeParamsRoundTrip(c, p.radius);
      Ok(ConeRequest(service, ConeParams(c, p.radius)))
  }

  // ---------------------------------------------------------------------------
  // _astropy_cone_table_from_votable_response
  // ---------------------------------------------------------------------------

  /** An HTTP response: its raw body and the URL that was queried. */
  datatype Response = Response(content: seq<Utf8.byte>, url: string)

  /** The table-level metadata the envelope adds. */
  const EnvelopeKeys: set<string> := {"xml_raw", "url"}

  /** `_astropy_cone_table_from_votable_response`: the table the VOTABLE
      reader gives (`parsed`), or an empty masked table when it fails, with the
      raw body and the URL stored as one-element lists in the metadata. */
  function ConeTableFromResponse(resp: Response, parsed: Result<Table>): (r: Table)
    ensures "xml_raw" in r.meta && r.meta["xml_raw"] == [Bytes(resp.content)]
    ensures "url" in r.meta && r.meta["url"] == [Str(resp.url)]
    ensures parsed.Ok? ==> r.columns == parsed.value.columns && r.masked == parsed.value.masked
    ensures parsed.Ok? ==> (r.meta.Keys == parsed.value.meta.Keys + EnvelopeKeys
      && forall k :: k in parsed.value.meta && k !in EnvelopeKeys ==> r.meta[k] == parsed.value.meta[k])
    ensures parsed.Err? ==> r.columns == [] && r.masked && r.meta.Keys == EnvelopeKeys
  {
    var t := if parsed.Ok? then parsed.value else Table([], map[], true);
    t.(meta := t.meta["xml_raw" := [Bytes(resp.content)]]["url" := [Str(resp.url)]])
  }

  /** Both paths record the same envelope, and a failed parse gives a table
      with no rows. */
  lemma EnvelopeOnBothPaths(resp: Response, t: Table, e: Error)
    ensures ConeTableFromResponse(resp, Ok(t)).meta["xml_raw"] == ConeTableFromResponse(resp, Err(e)).meta["xml_raw"]
    ensures ConeTableFromResponse(resp, Ok(t)).meta["url"] == ConeTableFromResponse(resp, Err(e)).meta["url"]
    ensures RowCount(ConeTableFromResponse(resp, Err(e))) == 0
    ensures RowCount(ConeTableFromResponse(resp, Ok(t))) == RowCount(t)
  {
  }

  /** The stored body decodes (as `sval` does) to the text the service sent. */
  lemma EnvelopeKeepsBody(text: string, url: string, parsed: Result<Table>)
    ensures Sval(ConeTableFromResponse(Response(Utf8.Encode(text), url), parsed).meta["xml_raw"][0]) == Ok(text)
  {
    SvalOfEncoded(text);
  }
}

=== FILE: image.dfy ===
/** The image search (`ImageClass`) and its result table (`ImageTable`), which
    lets callers address columns by a mnemonic (`ImageColumn`) instead of by the
    column name a particular service happened to use. */
module ImageSearch {
  import opened Wrappers
  import opened Tables
  import opened QueryInputs

  /** Seconds before one image request times out. */
  const Timeout: nat := 60
  /** Total number of tries for one image request. */
  const Retries: nat := 3

  // ---------------------------------------------------------------------------
  // ImageClass.query and _one_image_search
  // ---------------------------------------------------------------------------

  /** `ImageClass.query` up to the network call: the normalised service and
      one parameter record per coordinate. */
  function Query(service: Service, coords: CoordValue, radius: RadiusArg, format: Option<string>)
    : (r: Result<SearchPlan>)
    ensures r.Ok? ==> r.value.service == AsServiceRecord(service)
    ensures coords.Text? || coords.Sky? ==> (r.Ok? ==> |r.value.params| == 1 && r.value.params[0].coords == coords)
    ensures coords.ListOf? && r.Ok? ==> (|r.value.params| == |coords.items|
      && forall i :: 0 <= i < |coords.items| ==> r.value.params[i].coords == coords.items[i])
    ensures radius.Scalar? && r.Ok? ==> forall i :: 0 <= i < |r.value.params| ==> r.value.params[i].radius == radius.r
    ensures radius.Radii? && r.Ok? ==> (|radius.rs| == |r.value.params|
      && forall i :: 0 <= i < |r.value.params| ==> r.value.params[i].radius == radius.rs[i])
    ensures r.Ok? ==> (NormaliseFormat(format).Ok?
      && forall i :: 0 <= i < |r.value.params| ==> r.value.params[i].format == NormaliseFormat(format).value)
    ensures coords.TupleOf? || coords.Number? || coords.Unsupported? ==> r == Err(AssertionFailed)
    ensures r.Ok? <==> (WrapCoords(coords).Ok?
      && BroadcastRadius(radius, |WrapCoords(coords).value|).Ok? && NormaliseFormat(format).Ok?)
    ensures WrapCoords(coords).Ok? && BroadcastRadius(radius, |WrapCoords(coords).value|).Err?
      ==> r == Err(AssertionFailed)
    ensures (WrapCoords(coords).Ok? && BroadcastRadius(radius, |WrapCoords(coords).value|).Ok?
      && NormaliseFormat(format).Err?) ==> r == Err(FormatRejected)
    ensures (coords.Text? || coords.Sky?) && radius.Scalar? && format.None? ==> r.Ok?
  {
    NormaliseQuery(service, coords, radius, format)
  }

  /** `_one_image_search` up to the network call. */
  function OneImageSearch(p: SearchParams, service: Service, parser: CoordParser): (r: Result<SearchRequest>)
    ensures r.Ok? ==> r.value.timeout == Timeout && r.value.retries == Retries
    ensures r.Ok? ==> "SIZE" in r.value.params && r.value.params["SIZE"] == Degrees(2.0 * p.radius)
    ensures r.Ok? ==> ("FORMAT" in r.value.params <==> p.format.Some?)
    ensures p.coords.Sky? ==> (r.Ok? && "POS" in r.value.params
      && r.value.params["POS"] == Position(p.coords.coord.ra, p.coords.coord.dec))
    ensures !IsPair(p.coords) && !p.coords.Text? && !p.coords.Sky? ==> r == Err(AssertionFailed)
    ensures r.Err? <==> ResolveSearchCoords(p.coords, parser).Err?
    ensures r.Err? ==> r.error == ResolveSearchCoords(p.coords, parser).error
    ensures r.Ok? ==>
      ReadSiaParams(r.value.params) == Some((ResolveSearchCoords(p.coords, parser).value, p.radius, p.format))
    ensures r.Ok? ==> r.value.params.Keys <= {"POS", "SIZE", "FORMAT"}
    ensures r.Ok? ==> r.value.service == service
  {
    OneSearchRequest(p, service, parser, Timeout, Retries)
  }

  /** The results of the searches, each wrapped as an `ImageTable` with no
      mnemonic map computed yet. */
  function WrapResults(results: seq<Table>): (r: seq<ImageTable>)
    ensures |r| == |results|
    ensures forall i :: 0 <= i < |r| ==> r[i].table == results[i] && r[i].ucdmap.None? && Valid(r[i])
  {
    seq(|results|, i requires 0 <= i < |results| => ImageTable(results[i], None))
  }

  // ---------------------------------------------------------------------------
  // ImageColumn
  // ---------------------------------------------------------------------------

  /** The SIA 1.0 result columns a caller can ask for by mnemonic. */
  datatype ImageColumn =
    | TITLE | RA | DEC | NAXES | NAXIS | SCALE | FORMAT | ACCESS_URL
    | INSTRUMENT | MJD_OBS | REF_FRAME | BANDPASS | BANDPASS_UNIT | BANDPASS_REFVAL
    | BANDPASS_HILIMIT | BANDPASS_LOLIMIT | PIXFLAGS | FILESIZE
    | PROJECTION | CRPIX | CRVAL | CDMATRIX

  /** The UCD each mnemonic stands for (the enumeration member's value). */
  function Ucd(m: ImageColumn): string
  {
    match m
    case TITLE => "VOX:Image_Title"
    case RA => "POS_EQ_RA_MAIN"
    case DEC => "POS_EQ_DEC_MAIN"
    case NAXES => "VOX:Image_Naxes"
    case NAXIS => "VOX:Image_Naxis"
    case SCALE => "VOX:Image_Scale"
    case FORMAT => "VOX:Image_Format"
    case ACCESS_URL => "VOX:Image_AccessReference"
    case INSTRUMENT => "INST_ID"
    case MJD_OBS => "VOX:Image_MJDateObs"
    case REF_FRAME => "VOX:STC_CoordRefFrame"
    case BANDPASS => "VOX:BandPass_ID"
    case BANDPASS_UNIT => "VOX:BandPass_Unit"
    case BANDPASS_REFVAL => "VOX:BandPass_RefValue"
    case BANDPASS_HILIMIT => "VOX:BandPass_HiLimit"
    case BANDPASS_LOLIMIT => "VOX:BandPass_LoLimit"
    case PIXFLAGS => "VOX:Image_PixFlags"
    case FILESIZE => "VOX:Image_FileSize"
    case PROJECTION => "VOX:WCS_CoordProjection"
    case CRPIX => "VOX:WCS_CoordRefPixel"
    case CRVAL => "VOX:WCS_CoordRefValue"
    case CDMATRIX => "VOX:WCS_CDMatrix"
  }

  /** The enumeration member's name, the key of the mnemonic map. */
  function MemberName(m: ImageColumn): string
  {
    match m
    case TITLE => "TITLE"
    case RA => "RA"
    case DEC => "DEC"
    case NAXES => "NAXES"
    case NAXIS => "NAXIS"
    case SCALE => "SCALE"
    case FORMAT => "FORMAT"
    case ACCESS_URL => "ACCESS_URL"
    case INSTRUMENT => "INSTRUMENT"
    case MJD_OBS => "MJD_OBS"
    case REF_FRAME => "REF_FRAME"
    case BANDPASS => "BANDPASS"
    case BANDPASS_UNIT => "BANDPASS_UNIT"
    case BANDPASS_REFVAL => "BANDPASS_REFVAL"
    case BANDPASS_HILIMIT => "BANDPASS_HILIMIT"
    case BANDPASS_LOLIMIT => "BANDPASS_LOLIMIT"
    case PIXFLAGS => "PIXFLAGS"
    case FILESIZE => "FILESIZE"
    case PROJECTION => "PROJECTION"
    case CRPIX => "CRPIX"
    case CRVAL => "CRVAL"
    case CDMATRIX => "CDMATRIX"
  }

  /** The members in declaration order, as `for ucd in ImageColumn` visits them. */
  const Members: seq<ImageColumn> := [
    TITLE, RA, DEC, NAXES, NAXIS, SCALE, FORMAT, ACCESS_URL,
    INSTRUMENT, MJD_OBS, REF_FRAME, BANDPASS, BANDPASS_UNIT, BANDPASS_REFVAL,
    BANDPASS_HILIMIT, BANDPASS_LOLIMIT, PIXFLAGS, FILESIZE,
    PROJECTION, CRPIX, CRVAL, CDMATRIX]

  /** Every member is visited, and there are 22 of them. */
  lemma MembersComplete(m: ImageColumn)
    ensures m in Members
    ensures |Members| == 22
  {
  }

  /** Member names identify members. */
  lemma MemberNameInjective(a: ImageColumn, b: ImageColumn)
    requires MemberName(a) == MemberName(b)
    ensures a == b
  {
    // Names of different lengths differ; names of equal length differ in a character.
    var na, nb := MemberName(a), MemberName(b);
    assert |na| == |nb|;
    assert na[0] == nb[0];
    assert na[|na| - 1] == nb[|nb| - 1];
  }

  // ---------------------------------------------------------------------------
  // ImageTable
  // ---------------------------------------------------------------------------

  /** An image result table and its cached mnemonic map (`__ucdmap__`), from
      member name to column name (`None` when no column has that UCD). */
  datatype ImageTable = ImageTable(table: Table, ucdmap: Option<map<string, Option<string>>>)

  /** `__compute_ucd_column_name__`: the name of the first column with the
      member's UCD. */
  function ColumnNameFor(t: Table, m: ImageColumn): (r: Option<string>)
    ensures r.None? <==> FindColumnByUcd(t, Ucd(m)).None?
    ensures r.Some? ==> r.value == FindColumnByUcd(t, Ucd(m)).value.name
  {
    match FindColumnByUcd(t, Ucd(m))
    case None => None
    case Some(c) => Some(c.name)
  }

  /** The map built for the members in `ms`, one entry at a time. */
  function UcdmapOf(t: Table, ms: seq<ImageColumn>): (r: map<string, Option<string>>)
    ensures forall m :: m in ms ==> MemberName(m) in r && r[MemberName(m)] == ColumnNameFor(t, m)
    ensures forall k :: k in r ==> exists m :: m in ms && MemberName(m) == k
    decreases |ms|
  {
    if |ms| == 0 then map[]
    else
      var prev := UcdmapOf(t, ms[..|ms| - 1]);
      var last := ms[|ms| - 1];
      var r := prev[MemberName(last) := ColumnNameFor(t, last)];
      assert forall m :: m in ms ==> m in ms[..|ms| - 1] || m == last;
      forall m | m in ms
        ensures MemberName(m) in r && r[MemberName(m)] == ColumnNameFor(t, m)
      {
        if MemberName(m) == MemberName(last) {
          MemberNameInjective(m, last);
        }
      }
      r
  }

  /** The mnemonic map of a table: one entry per member, keyed by member name. */
  function ComputeUcdmap(t: Table): (r: map<string, Option<string>>)
    ensures forall m: ImageColumn :: MemberName(m) in r && r[MemberName(m)] == ColumnNameFor(t, m)
    ensures forall k :: k in r ==> exists m: ImageColumn :: MemberName(m) == k
  {
    forall m: ImageColumn ensures m in Members { MembersComplete(m); }
    UcdmapOf(t, Members)
  }

  /** No member is listed twice. */
  lemma MembersDistinct()
    ensures forall i, j :: 0 <= i < j < |Members| ==> Members[i] != Members[j]
  {
  }

  /** The images of the elements of `xs` under `f`. */
  ghost function SetImage<A, B>(xs: seq<A>, f: A -> B): set<B>
  {
    set x | x in xs :: f(x)
  }

  /** An injective function maps distinct elements to as many distinct images. */
  lemma {:induction false} InjectiveImageSize<A, B>(xs: seq<A>, f: A -> B)
    requires forall i, j :: 0 <= i < j < |xs| ==> xs[i] != xs[j]
    requires forall a, b :: f(a) == f(b) ==> a == b
    ensures |SetImage(xs, f)| == |xs|
    decreases |xs|
  {
    if |xs| > 0 {
      var init, last := xs[..|xs| - 1], xs[|xs| - 1];
      InjectiveImageSize(init, f);
      assert SetImage(xs, f) == SetImage(init, f) + {f(last)} by {
        assert forall x :: x in xs <==> x in init || x == last;
      }
      assert f(last) !in SetImage(init, f);
    }
  }

  /** The mnemonic map is keyed by exactly the member names, 22 of them. */
  lemma UcdmapSize(t: Table)
    ensures ComputeUcdmap(t).Keys == set m | m in Members :: MemberName(m)
    ensures |ComputeUcdmap(t)| == 22
  {
    UcdmapKeys(t);
    MembersSize(Members);
  }

  /** The listed members have 22 distinct names. */
  lemma MembersSize(ms: seq<ImageColumn>)
    requires ms == Members
    ensures |set m | m in ms :: MemberName(m)| == 22
  {
    MembersDistinct();
    MemberNamesInjective();
    var f: ImageColumn -> string := MemberName;
    InjectiveImageSize(ms, f);
    assert SetImage(ms, f) == set m | m in ms :: MemberName(m);
    assert |Members| == 22;
  }

  /** The mnemonic map is keyed by the names of the listed members. */
  lemma UcdmapKeys(t: Table)
    ensures ComputeUcdmap(t).Keys == set m | m in Members :: MemberName(m)
  {
    var r := ComputeUcdmap(t);
    forall k | k in r ensures k in set m | m in Members :: MemberName(m) {
      var m :| MemberName(m) == k;
      MembersComplete(m);
    }
  }

  /** `MemberName` is injective. */
  lemma MemberNamesInjective()
    ensures forall a, b :: MemberName(a) == MemberName(b) ==> a == b
  {
    forall a, b | MemberName(a) == MemberName(b) ensures a == b {
      MemberNameInjective(a, b);
    }
  }

  /** The cache, when present, agrees with the table. */
  ghost predicate Valid(it: ImageTable)
  {
    it.ucdmap.None? || it.ucdmap.value == ComputeUcdmap(it.table)
  }

  /** `get_ucdmap`: builds the map on first use and stores it; later calls
      return the stored map without recomputing it. */
  function GetUcdmap(it: ImageTable): (r: (ImageTable, map<string, Option<string>>))
    ensures r.0.table == it.table && r.0.ucdmap == Some(r.1)
    ensures it.ucdmap.Some? && |it.ucdmap.value| > 0 ==> r == (it, it.ucdmap.value)
    ensures Valid(it) ==> r.1 == ComputeUcdmap(it.table) && Valid(r.0)
    ensures !(it.ucdmap.Some? && |it.ucdmap.value| > 0) ==> r.1 == ComputeUcdmap(it.table) && Valid(r.0)
  {
    if it.ucdmap.Some? && |it.ucdmap.value| > 0 then (it, it.ucdmap.value)
    else
      var m := ComputeUcdmap(it.table);
      (it.(ucdmap := Some(m)), m)
  }

  /** Once built, the map is reused: a second call changes nothing. */
  lemma GetUcdmapReused(it: ImageTable)
    ensures GetUcdmap(GetUcdmap(it).0) == GetUcdmap(it)
  {
    UcdmapSize(it.table);
  }

  // ---------------------------------------------------------------------------
  // Lookup by mnemonic
  // ---------------------------------------------------------------------------

  /** A key a caller may index an image table or row with. */
  datatype Key = Mnemonic(m: ImageColumn) | ColumnName(name: string) | Index(i: int)

  /** `get_ucd_column_name`: the column name the mnemonic map gives a member;
      any other key raises `ValueError`. */
  function GetUcdColumnName(it: ImageTable, key: Key): (r: Result<(ImageTable, Option<string>)>)
    ensures r.Err? <==> !key.Mnemonic?
    ensures r.Err? ==> r.error == ValueError
    ensures r.Ok? ==> r.value.0.table == it.table
    ensures r.Ok? && Valid(it) ==> Valid(r.value.0) && r.value.1 == ColumnNameFor(it.table, key.m)
  {
    match key
    case Mnemonic(m) =>
      var (it', ucdmap) := GetUcdmap(it);
      Ok((it', if MemberName(m) in ucdmap then ucdmap[MemberName(m)] else None))
    case _ => Err(ValueError)
  }

  /** The first column with the given name. */
  function ColumnNamed(t: Table, name: string): (r: Option<Column>)
    ensures r.Some? ==> r.value in t.columns && r.value.name == name
    ensures r.None? <==> forall i :: 0 <= i < |t.columns| ==> t.columns[i].name != name
  {
    ColumnNamedIn(t.columns, name)
  }

  function ColumnNamedIn(cols: seq<Column>, name: string): (r: Option<Column>)
    ensures r.Some? ==> r.value in cols && r.value.name == name
    ensures r.Some? ==> exists i :: 0 <= i < |cols| && cols[i] == r.value && forall j :: 0 <= j < i ==> cols[j].name != name
    ensures r.None? <==> forall i :: 0 <= i < |cols| ==> cols[i].name != name
  {
    if |cols| == 0 then None
    else if cols[0].name == name then Some(cols[0])
    else
      var r := ColumnNamedIn(cols[1..], name);
      if r.Some? then
        var i :| 0 <= i < |cols[1..]| && cols[1..][i] == r.value && forall j :: 0 <= j < i ==> cols[1..][j].name != name;
        assert cols[i + 1] == r.value;
        r
      else r
  }

  /** Column names in an astropy table are unique. */
  ghost predicate UniqueNames(t: Table)
  {
    forall i, j :: 0 <= i < j < |t.columns| ==> t.columns[i].name != t.columns[j].name
  }

  /** What indexing a table gives: nothing, a column, or a row. */
  datatype Item = NoItem | ColumnItem(column: Column) | RowItem(row: nat)

  /** Python's index normalisation: `-(n as int) <= i < n` is valid, negatives count from the end. */
  function PyIndex(i: int, n: nat): (r: Option<nat>)
    ensures r.Some? <==> -(n as int) <= i < n
    ensures r.Some? ==> r.value < n && (r.value == i || r.value == i + n)
  {
    if 0 <= i < n then Some(i)
    else if -(n as int) <= i < 0 then Some(i + n)
    else None
  }

  /** The base table's `__getitem__`: a column by name, or a row by index. */
  function BaseGetItem(t: Table, key: Key): (r: Result<Item>)
    requires !key.Mnemonic?
    ensures key.ColumnName? ==> (r.Ok? <==> ColumnNamed(t, key.name).Some?)
    ensures key.ColumnName? && r.Ok? ==> r.value == ColumnItem(ColumnNamed(t, key.name).value)
    ensures key.Index? ==> (r.Ok? <==> -(RowCount(t) as int) <= key.i < RowCount(t))
    ensures key.Index? && r.Ok? ==> (r.value.RowItem? && r.value.row < RowCount(t)
      && r.value.row as int == (if key.i >= 0 then key.i else key.i + RowCount(t) as int))
    ensures r.Err? ==> (key.ColumnName? && r.error == KeyError) || (key.Index? && r.error == IndexError)
  {
    match key
    case ColumnName(name) =>
      (match ColumnNamed(t, name)
       case None => Err(KeyError)
       case Some(c) => Ok(ColumnItem(c)))
    case Index(i) =>
      match PyIndex(i, RowCount(t))
      case None => Err(IndexError)
      case Some(k) => Ok(RowItem(k))
  }

  /** `ImageTable.__getitem__`: a mnemonic gives the column with that UCD, or
      `None` when there is none; any other key is handed to the base table. */
  function GetItem(it: ImageTable, key: Key): (r: Result<(ImageTable, Item)>)
    ensures key.Mnemonic? ==> r == MnemonicLookup(it, key.m)
    ensures !key.Mnemonic? ==> r == (match BaseGetItem(it.table, key)
      case Ok(item) => Ok((it, item))
      case Err(e) => Err(e))
    ensures r.Ok? ==> r.value.0.table == it.table
  {
    match key
    case Mnemonic(m) => MnemonicLookup(it, m)
    case _ =>
      match BaseGetItem(it.table, key)
      case Ok(item) => Ok((it, item))
      case Err(e) => Err(e)
  }

  /** `ImageTable.__getitem__` with a mnemonic: the name the mnemonic map
      gives, looked up in the base table; no name gives no item. */
  function MnemonicLookup(it: ImageTable, m: ImageColumn): (r: Result<(ImageTable, Item)>)
    ensures r.Ok? ==> r.value.0.table == it.table
    ensures r.Ok? && r.value.1 != NoItem ==> r.value.1.ColumnItem? && r.value.1.column in it.table.columns
    ensures r.Err? ==> r.error == KeyError
    ensures var (it', name) := GetUcdColumnName(it, Mnemonic(m)).value;
      name.None? ==> r == Ok((it', NoItem))
    ensures var (it', name) := GetUcdColumnName(it, Mnemonic(m)).value;
      name.Some? ==> ((r.Ok? <==> ColumnNamed(it.table, name.value).Some?)
        && (r.Ok? ==> r.value == (it', ColumnItem(ColumnNamed(it.table, name.value).value))))
  {
    var (it', name) := GetUcdColumnName(it, Mnemonic(m)).value;
    if name.None? then Ok((it', NoItem))
    else
      match BaseGetItem(it'.table, ColumnName(name.value))
      case Ok(item) => Ok((it', item))
      case Err(e) => Err(e)
  }

  /** The item a UCD should give: the first column carrying it, or nothing
      exactly when no column carries it. */
  function UcdItem(t: Table, ucd: string): (r: Item)
    ensures r == NoItem <==> forall i :: 0 <= i < |t.columns| ==> !HasUcd(t.columns[i], ucd)
    ensures r != NoItem ==> r.ColumnItem? && exists i :: FirstWithUcd(t.columns, ucd, i) && t.columns[i] == r.column
  {
    match FindColumnByUcd(t, ucd)
    case None => NoItem
    case Some(c) => ColumnItem(c)
  }

  /** With a valid cache and unique column names, indexing by mnemonic never
      raises: it gives the first column carrying the mnemonic's UCD, or `None`
      exactly when no column carries it, and the cache stays valid. */
  lemma MnemonicLookupSucceeds(it: ImageTable, m: ImageColumn)
    requires Valid(it) && UniqueNames(it.table)
    ensures GetItem(it, Mnemonic(m)) == Ok((GetUcdmap(it).0, UcdItem(it.table, Ucd(m))))
    ensures Valid(GetUcdmap(it).0)
  {
    var u := Ucd(m);
    match FirstUcdIndex(it.table.columns, u) {
      case None =>
      case Some(i) => NamedItemIsUcdItem(it.table, u, i);
    }
  }

  /** With unique column names, the base lookup by the name of the first
      column carrying `ucd` gives that column. */
  lemma NamedItemIsUcdItem(t: Table, ucd: string, i: int)
    requires UniqueNames(t) && FirstWithUcd(t.columns, ucd, i)
    ensures UcdItem(t, ucd) == ColumnItem(t.columns[i])
    ensures BaseGetItem(t, ColumnName(t.columns[i].name)) == Ok(UcdItem(t, ucd))
  {
    FindColumnByUcdAt(t, ucd, i);
    NameFindsColumn(t, i);
  }

  /** With unique column names, looking a column up by its own name finds it. */
  lemma NameFindsColumn(t: Table, i: int)
    requires UniqueNames(t) && 0 <= i < |t.columns|
    ensures ColumnNamed(t, t.columns[i].name) == Some(t.columns[i])
  {
    var name := t.columns[i].name;
    var r := ColumnNamedIn(t.columns, name);
    assert r.Some?;
    var j :| 0 <= j < |t.columns| && t.columns[j] == r.value && forall k :: 0 <= k < j ==> t.columns[k].name != name;
    assert j == i;
  }

  /** `ImRow.__getitem__` with a mnemonic: the cell, in row `row`, of the
      column with the mnemonic's UCD, or `None` when there is no such column. */
  function MnemonicCell(it: ImageTable, row: nat, m: ImageColumn): (r: Result<(ImageTable, Option<Value>)>)
    requires row < RowCount(it.table) && Rectangular(it.table)
    ensures r.Ok? ==> r.value.0.table == it.table
    ensures r.Err? ==> r.error == KeyError
  {
    var (it', name) := GetUcdColumnName(it, Mnemonic(m)).value;
    if name.None? then Ok((it', None))
    else
      match NamedCell(it.table, row, name.value)
      case Err(e) => Err(e)
      case Ok(v) => Ok((it', Some(v)))
  }

  /** With a valid cache and unique column names, a row indexed by mnemonic
      gives the cell of the first column carrying the mnemonic's UCD, or
      `None` exactly when no column carries it. */
  lemma MnemonicCellFinds(it: ImageTable, row: nat, m: ImageColumn)
    requires row < RowCount(it.table) && Rectangular(it.table)
    requires Valid(it) && UniqueNames(it.table)
    ensures MnemonicCell(it, row, m) == Ok((GetUcdmap(it).0, UcdCell(it.table, row, Ucd(m))))
    ensures Valid(GetUcdmap(it).0)
  {
    var u := Ucd(m);
    match FirstUcdIndex(it.table.columns, u) {
      case None =>
      case Some(i) => NamedCellIsUcdCell(it.table, row, u, i);
    }
  }

  /** The cell, in row `row`, of the first column carrying `ucd`, if any. */
  function UcdCell(t: Table, row: nat, ucd: string): (r: Option<Value>)
    requires row < RowCount(t) && Rectangular(t)
    ensures r.None? <==> forall j :: 0 <= j < |t.columns| ==> !HasUcd(t.columns[j], ucd)
    ensures r.Some? ==> exists i :: FirstWithUcd(t.columns, ucd, i) && r.value == t.columns[i].cells[row]
  {
    match FindColumnByUcd(t, ucd)
    case None => None
    case Some(c) => CellOf(t, c, row); Some(c.cells[row])
  }

  /** With unique column names, the cell found by the name of the first
      column carrying `ucd` is that column's cell. */
  lemma NamedCellIsUcdCell(t: Table, row: nat, ucd: string, i: int)
    requires row < RowCount(t) && Rectangular(t) && UniqueNames(t)
    requires FirstWithUcd(t.columns, ucd, i)
    ensures UcdCell(t, row, ucd) == Some(t.columns[i].cells[row])
    ensures NamedCell(t, row, t.columns[i].name) == Ok(t.columns[i].cells[row])
  {
    FindColumnByUcdAt(t, ucd, i);
    NameFindsColumn(t, i);
  }

  /** The cell, in row `row`, of the column named `name`. */
  function NamedCell(t: Table, row: nat, name: string): (r: Result<Value>)
    requires row < RowCount(t) && Rectangular(t)
    ensures r.Ok? <==> ColumnNamed(t, name).Some?
    ensures r.Ok? ==> r.value == ColumnNamed(t, name).value.cells[row]
    ensures r.Err? ==> r.error == KeyError
  {
    match ColumnNamed(t, name)
    case None => Err(KeyError)
    case Some(c) => CellOf(t, c, row); Ok(c.cells[row])
  }

  /** `ImRow.__getitem__`: in row `row`, a mnemonic gives the cell of the
      column with that UCD (or `None`); a column name gives that column's
      cell; an index gives the cell of that column position. */
  function RowGetItem(it: ImageTable, row: nat, key: Key): (r: Result<(ImageTable, Option<Value>)>)
    requires row < RowCount(it.table) && Rectangular(it.table)
    ensures r.Ok? ==> r.value.0.table == it.table
    ensures key.Mnemonic? ==> r == MnemonicCell(it, row, key.m)
    ensures key.ColumnName? ==> (r.Ok? <==> ColumnNamed(it.table, key.name).Some?)
    ensures key.ColumnName? && r.Ok? ==> r.value == (it, Some(ColumnNamed(it.table, key.name).value.cells[row]))
    ensures key.Index? ==> (r.Ok? <==> -(|it.table.columns| as int) <= key.i < |it.table.columns|)
    ensures key.Index? && r.Ok? ==> r.value.1 == Some(it.table.columns[PyIndex(key.i, |it.table.columns|).value].cells[row])
    ensures r.Err? ==> r.error in {KeyError, IndexError}
  {
    match key
    case Mnemonic(m) => MnemonicCell(it, row, m)
    case ColumnName(n) =>
      (match NamedCell(it.table, row, n)
       case Err(e) => Err(e)
       case Ok(v) => Ok((it, Some(v))))
    case Index(i) =>
      match PyIndex(i, |it.table.columns|)
      case None => Err(IndexError)
      case Some(k) => Ok((it, Some(it.table.columns[k].cells[row])))
  }

  /** Every column of a rectangular table has a cell in each row. */
  lemma CellOf(t: Table, c: Column, row: nat)
    requires Rectangular(t) && c in t.columns && row < RowCount(t)
    ensures row < |c.cells|
  {
  }

  // ---------------------------------------------------------------------------
  // ImageClass.get_column and get_column_name
  // ---------------------------------------------------------------------------

  /** The `table` argument: an astropy table or some other object. */
  datatype TableArg = AstropyTable(t: Table) | NotATable

  /** `ImageClass.get_column`: the first column with the mnemonic's UCD; a key
      that is not a mnemonic, then a non-table, raises `ValueError`. */
  function GetColumn(table: TableArg, key: Key): (r: Result<Option<Column>>)
    ensures r.Err? <==> !key.Mnemonic? || table.NotATable?
    ensures r.Err? ==> r.error == ValueError
    ensures r.Ok? ==> r.value == FindColumnByUcd(table.t, Ucd(key.m))
  {
    if !key.Mnemonic? then Err(ValueError)
    else if table.NotATable? then Err(ValueError)
    else Ok(FindColumnByUcd(table.t, Ucd(key.m)))
  }

  /** `ImageClass.get_column_name`: the name of that column, or `None`. */
  function GetColumnName(table: TableArg, key: Key): (r: Result<Option<string>>)
    ensures r.Err? <==> GetColumn(table, key).Err?
    ensures r.Ok? ==> (r.value.None? <==> GetColumn(table, key).value.None?)
    ensures r.Ok? && r.value.Some? ==> r.value.value == GetColumn(table, key).value.value.name
  {
    match GetColumn(table, key)
    case Err(e) => Err(e)
    case Ok(None) => Ok(None)
    case Ok(Some(c)) => Ok(Some(c.name))
  }

  /** `get_column_name` agrees with the table's own mnemonic map. */
  lemma GetColumnNameMatchesUcdmap(t: Table, m: ImageColumn)
    ensures GetColumnName(AstropyTable(t), Mnemonic(m)) == Ok(ColumnNameFor(t, m))
    ensures ComputeUcdmap(t)[MemberName(m)] == ColumnNameFor(t, m)
  {
  }
}

=== FILE: query_inputs.dfy ===
/** Input normalisation shared by the image, spectra and cone searches: a single
    coordinate becomes a list, a single radius is repeated for every coordinate,
    a free-text image format becomes a MIME token, and a bare URL becomes a
    service record. Also the per-position request of a Simple Image Access (or
    Simple Spectral Access) search. */
module QueryInputs {
  import opened Wrappers
  import opened Text

  // ---------------------------------------------------------------------------
  // Argument shapes
  // ---------------------------------------------------------------------------

  /** A resolved sky position (an astropy `SkyCoord`), in degrees. */
  datatype SkyCoord = SkyCoord(ra: real, dec: real)

  /** A coordinate argument as a caller may pass it. */
  datatype CoordValue =
    | Text(s: string)                  // e.g. "148.97, 69.68" or "m82"
    | Sky(coord: SkyCoord)             // a SkyCoord object
    | ListOf(items: seq<CoordValue>)   // a Python list
    | TupleOf(items: seq<CoordValue>)  // a Python tuple
    | Number(x: real)                  // a bare number
    | Unsupported                      // any other object

  /** The radius argument: one value for every coordinate, or a list of them. */
  datatype RadiusArg = Scalar(r: real) | Radii(rs: seq<real>)

  /** A service argument. */
  datatype Service =
    | Url(url: string)                         // a bare access URL
    | Record(fields: map<string, string>)      // a dict such as {"access_url": ...}
    | TableRow(fields: map<string, string>)    // one row of a registry result
    | TableRows(rows: seq<map<string, string>>) // a whole registry result table
    | ServiceList(items: seq<Service>)         // a Python list of services
    | NoService                                // None

  /** The endpoint a service argument designates, if it names one directly. */
  function AccessUrl(s: Service): Option<string>
  {
    match s
    case Url(u) => Some(u)
    case Record(f) => if "access_url" in f then Some(f["access_url"]) else None
    case TableRow(f) => if "access_url" in f then Some(f["access_url"]) else None
    case _ => None
  }

  /** A string service becomes `{"access_url": s}`; anything else is kept. */
  function AsServiceRecord(s: Service): (r: Service)
    ensures !r.Url?
    ensures s.Url? ==> r == Record(map["access_url" := s.url])
    ensures !s.Url? ==> r == s
    ensures AccessUrl(r) == AccessUrl(s)
  {
    match s
    case Url(u) => Record(map["access_url" := u])
    case _ => s
  }

  /** Normalising a service twice is normalising it once. */
  lemma AsServiceRecordIdempotent(s: Service)
    ensures AsServiceRecord(AsServiceRecord(s)) == AsServiceRecord(s)
  {
  }

  // ---------------------------------------------------------------------------
  // Coordinates and radii
  // ---------------------------------------------------------------------------

  /** A string or SkyCoord is wrapped into a one-element list, a list is kept,
      and anything else (a bare tuple included) fails the type assertion. */
  function WrapCoords(coords: CoordValue): (r: Result<seq<CoordValue>>)
    ensures r.Ok? <==> coords.Text? || coords.Sky? || coords.ListOf?
    ensures r.Ok? && !coords.ListOf? ==> r.value == [coords]
    ensures r.Ok? && coords.ListOf? ==> r.value == coords.items
    ensures r.Err? ==> r.error == AssertionFailed
  {
    match coords
    case Text(_) => Ok([coords])
    case Sky(_) => Ok([coords])
    case ListOf(items) => Ok(items)
    case _ => Err(AssertionFailed)
  }

  /** A single radius is repeated once per coordinate; a list of radii must
      have one entry per coordinate. */
  function BroadcastRadius(radius: RadiusArg, n: nat): (r: Result<seq<real>>)
    ensures r.Ok? ==> |r.value| == n
    ensures radius.Scalar? ==> r.Ok? && forall i :: 0 <= i < n ==> r.value[i] == radius.r
    ensures radius.Radii? ==> (r.Ok? <==> |radius.rs| == n)
    ensures radius.Radii? && r.Ok? ==> r.value == radius.rs
    ensures r.Err? ==> r.error == AssertionFailed
  {
    match radius
    case Scalar(x) => Ok(seq(n, _ => x))
    case Radii(rs) => if |rs| == n then Ok(rs) else Err(AssertionFailed)
  }

  // ---------------------------------------------------------------------------
  // Image format
  // ---------------------------------------------------------------------------

  /** The values a normalised image format can take. */
  const FormatTokens: set<string> := {"image/fits", "image/jpeg", "image/png", "GRAPHICS", "ALL"}

  /** The first of "fits", "jpeg", "jpg", "png", "graphics", "all" found in the
      lower-cased text picks the token; text holding none of them is an error. */
  function FormatToken(text: string): (r: Result<string>)
    ensures r.Ok? ==> r.value in FormatTokens
    ensures r.Err? ==> r.error == FormatRejected
    ensures r.Err? <==> (!Contains(Lower(text), "fits") && !Contains(Lower(text), "jpeg")
      && !Contains(Lower(text), "jpg") && !Contains(Lower(text), "png")
      && !Contains(Lower(text), "graphics") && !Contains(Lower(text), "all"))
    ensures r == Ok("image/fits") <==> Contains(Lower(text), "fits")
    ensures r == Ok("image/jpeg") <==>
      (!Contains(Lower(text), "fits") && (Contains(Lower(text), "jpeg") || Contains(Lower(text), "jpg")))
    ensures r == Ok("image/png") <==>
      (!Contains(Lower(text), "fits") && !Contains(Lower(text), "jpeg") && !Contains(Lower(text), "jpg")
      && Contains(Lower(text), "png"))
    ensures r == Ok("GRAPHICS") <==>
      (!Contains(Lower(text), "fits") && !Contains(Lower(text), "jpeg") && !Contains(Lower(text), "jpg")
      && !Contains(Lower(text), "png") && Contains(Lower(text), "graphics"))
    ensures r == Ok("ALL") <==>
      (!Contains(Lower(text), "fits") && !Contains(Lower(text), "jpeg") && !Contains(Lower(text), "jpg")
      && !Contains(Lower(text), "png") && !Contains(Lower(text), "graphics") && Contains(Lower(text), "all"))
  {
    var l := Lower(text);
    if Contains(l, "fits") then Ok("image/fits")
    else if Contains(l, "jpeg") then Ok("image/jpeg")
    else if Contains(l, "jpg") then Ok("image/jpeg")
    else if Contains(l, "png") then Ok("image/png")
    else if Contains(l, "graphics") then Ok("GRAPHICS")
    else if Contains(l, "all") then Ok("ALL")
    else Err(FormatRejected)
  }

  /** The `image_format` argument: `None` stays `None`, text goes through `FormatToken`. */
  function NormaliseFormat(format: Option<string>): (r: Result<Option<string>>)
    ensures format.None? ==> r == Ok(None)
    ensures format.Some? ==> (r.Ok? <==> FormatToken(format.value).Ok?)
    ensures format.Some? && r.Ok? ==> r.value == Some(FormatToken(format.value).value)
    ensures r.Err? ==> r.error == FormatRejected
  {
    match format
    case None => Ok(None)
    case Some(text) =>
      match FormatToken(text)
      case Ok(token) => Ok(Some(token))
      case Err(e) => Err(e)
  }

  /** Format text that agrees once lower-cased is normalised alike. */
  lemma FormatIgnoresCase(a: string, b: string)
    requires Lower(a) == Lower(b)
    ensures FormatToken(a) == FormatToken(b)
  {
  }

  /** "jpeg" and "jpg", in any case, both ask for JPEG images. */
  lemma JpegSpellings(text: string)
    requires Lower(text) == "jpeg" || Lower(text) == "jpg"
    ensures FormatToken(text) == Ok("image/jpeg")
  {
    var l := Lower(text);
    if l == "jpeg" {
      assert !Contains(l, "fits") by { NotContainedChar(l, "fits", 'f'); }
      assert Contains(l, "jpeg") by { assert OccursAt(l, "jpeg", 0); }
    } else {
      assert !Contains(l, "fits") by { NotContainedChar(l, "fits", 'f'); }
      assert Contains(l, "jpg") by { assert OccursAt(l, "jpg", 0); }
    }
  }

  // The token facts below are stated one literal at a time: each lemma is
  // about one fixed string, which keeps every proof small for the solver.

  /** "image/fits" in lower case. */
  lemma FitsTokenLower(t: string)
    requires t == "image/fits"
    ensures Lower(t) == "image/fits"
  {
    LowerOfLower(t);
  }

  /** The search words "image/fits" holds and lacks, up to the one that picks it. */
  lemma FitsTokenWords(l: string)
    requires l == "image/fits"
    ensures Contains(l, "fits")
  {
    assert OccursAt(l, "fits", 6);
  }

  /** "image/fits" is read back as itself. */
  lemma FitsTokenFixed(t: string)
    requires t == "image/fits"
    ensures FormatToken(t) == Ok(t)
  {
    FitsTokenLower(t);
    FitsTokenWords(Lower(t));
  }

  /** "image/jpeg" in lower case. */
  lemma JpegTokenLower(t: string)
    requires t == "image/jpeg"
    ensures Lower(t) == "image/jpeg"
  {
    LowerOfLower(t);
  }

  /** The search words "image/jpeg" holds and lacks, up to the one that picks it. */
  lemma JpegTokenWords(l: string)
    requires l == "image/jpeg"
    ensures !Contains(l, "fits") && Contains(l, "jpeg")
  {
    NotContainedChar(l, "fits", 'f');
    assert OccursAt(l, "jpeg", 6);
  }

  /** "image/jpeg" is read back as itself. */
  lemma JpegTokenFixed(t: string)
    requires t == "image/jpeg"
    ensures FormatToken(t) == Ok(t)
  {
    JpegTokenLower(t);
    JpegTokenWords(Lower(t));
  }

  /** "image/png" in lower case. */
  lemma PngTokenLower(t: string)
    requires t == "image/png"
    ensures Lower(t) == "image/png"
  {
    LowerOfLower(t);
  }

  /** The search words "image/png" holds and lacks, up to the one that picks it. */
  lemma PngTokenWords(l: string)
    requires l == "image/png"
    ensures !Contains(l, "fits") && !Contains(l, "jpeg") && !Contains(l, "jpg") && Contains(l, "png")
  {
    NotContainedChar(l, "fits", 'f');
    NotContainedChar(l, "jpeg", 'j');
    NotContainedChar(l, "jpg", 'j');
    assert OccursAt(l, "png", 6);
  }

  /** "image/png" is read back as itself. */
  lemma PngTokenFixed(t: string)
    requires t == "image/png"
    ensures FormatToken(t) == Ok(t)
  {
    PngTokenLower(t);
    PngTokenWords(Lower(t));
  }

  /** "GRAPHICS" in lower case. */
  lemma GraphicsTokenLower(t: string)
    requires t == "GRAPHICS"
    ensures Lower(t) == "graphics"
  {
    assert Lower(t) == "graphics";
  }

  /** The search words "graphics" holds and lacks, up to the one that picks it. */
  lemma GraphicsTokenWords(l: string)
    requires l == "graphics"
    ensures !Contains(l, "fits") && !Contains(l, "jpeg") && !Contains(l, "jpg") && !Contains(l, "png") && Contains(l, "graphics")
  {
    GraphicsTokenMisses(l);
    assert OccursAt(l, "graphics", 0);
  }

  /** The search words "graphics" lacks. */
  lemma GraphicsTokenMisses(l: string)
    requires l == "graphics"
    ensures !Contains(l, "fits") && !Contains(l, "jpeg") && !Contains(l, "jpg") && !Contains(l, "png")
  {
    NotContainedChar(l, "fits", 'f');
    NotContainedChar(l, "jpeg", 'j');
    NotContainedChar(l, "jpg", 'j');
    NotContainedChar(l, "png", 'n');
  }

  /** "GRAPHICS" is read back as itself. */
  lemma GraphicsTokenFixed(t: string)
    requires t == "GRAPHICS"
    ensures FormatToken(t) == Ok(t)
  {
    GraphicsTokenLower(t);
    GraphicsTokenWords(Lower(t));
  }

  /** "ALL" in lower case. */
  lemma AllTokenLower(t: string)
    requires t == "ALL"
    ensures Lower(t) == "all"
  {
    assert Lower(t) == "all";
  }

  /** The search words "all" holds and lacks, up to the one that picks it. */
  lemma AllTokenWords(l: string)
    requires l == "all"
    ensures !Contains(l, "fits") && !Contains(l, "jpeg") && !Contains(l, "jpg") && !Contains(l, "png") && !Contains(l, "graphics") && Contains(l, "all")
  {
    AllTokenMisses(l);
    assert OccursAt(l, "all", 0);
  }

  /** The search words "all" lacks. */
  lemma AllTokenMisses(l: string)
    requires l == "all"
    ensures !Contains(l, "fits") && !Contains(l, "jpeg") && !Contains(l, "jpg") && !Contains(l, "png") && !Contains(l, "graphics")
  {
    NotContainedChar(l, "fits", 'f');
    NotContainedChar(l, "jpeg", 'j');
    NotContainedChar(l, "jpg", 'j');
    NotContainedChar(l, "png", 'p');
    NotContainedChar(l, "graphics", 'g');
  }

  /** "ALL" is read back as itself. */
  lemma AllTokenFixed(t: string)
    requires t == "ALL"
    ensures FormatToken(t) == Ok(t)
  {
    AllTokenLower(t);
    AllTokenWords(Lower(t));
  }

  /** Every token is read back as itself. */
  lemma TokenFixed(t: string)
    requires t in FormatTokens
    ensures FormatToken(t) == Ok(t)
  {
    if t == "image/fits" { FitsTokenFixed(t); }
    else if t == "image/jpeg" { JpegTokenFixed(t); }
    else if t == "image/png" { PngTokenFixed(t); }
    else if t == "GRAPHICS" { GraphicsTokenFixed(t); }
    else { AllTokenFixed(t); }
  }

  /** A normalised format is normalised to itself, so passing the parameters of
      one search into another asks for the same format. */
  lemma NormaliseFormatIdempotent(format: Option<string>)
    requires NormaliseFormat(format).Ok?
    ensures NormaliseFormat(NormaliseFormat(format).value) == NormaliseFormat(format)
  {
    if format.Some? {
      TokenFixed(FormatToken(format.value).value);
    }
  }

  // ---------------------------------------------------------------------------
  // Image and spectra query normalisation
  // ---------------------------------------------------------------------------

  /** The parameters of one position's search. */
  datatype SearchParams = SearchParams(coords: CoordValue, radius: real, format: Option<string>)

  /** The normalised query: the service and one parameter record per position. */
  datatype SearchPlan = SearchPlan(service: Service, params: seq<SearchParams>)

  /** The input normalisation of `ImageClass.query` (and, identically, of
      `SpectraClass.query`). Checks run in the source's order: coordinates,
      radius, format. */
  function NormaliseQuery(service: Service, coords: CoordValue, radius: RadiusArg, format: Option<string>)
    : (r: Result<SearchPlan>)
    ensures r.Ok? <==> (WrapCoords(coords).Ok?
      && BroadcastRadius(radius, |WrapCoords(coords).value|).Ok?
      && NormaliseFormat(format).Ok?)
    ensures WrapCoords(coords).Err? ==> r == Err(AssertionFailed)
    ensures WrapCoords(coords).Ok? && BroadcastRadius(radius, |WrapCoords(coords).value|).Err?
      ==> r == Err(AssertionFailed)
    ensures r.Err? && WrapCoords(coords).Ok? && BroadcastRadius(radius, |WrapCoords(coords).value|).Ok?
      ==> r == Err(FormatRejected)
    ensures r.Ok? ==> r.value.service == AsServiceRecord(service)
    ensures r.Ok? ==> |r.value.params| == |WrapCoords(coords).value|
    ensures r.Ok? ==> forall i :: 0 <= i < |r.value.params| ==>
      r.value.params[i].coords == WrapCoords(coords).value[i]
      && r.value.params[i].radius == BroadcastRadius(radius, |r.value.params|).value[i]
      && r.value.params[i].format == NormaliseFormat(format).value
  {
    var svc := AsServiceRecord(service);
    match WrapCoords(coords)
    case Err(e) => Err(e)
    case Ok(cs) =>
      match BroadcastRadius(radius, |cs|)
      case Err(e) => Err(e)
      case Ok(radii) =>
        match NormaliseFormat(format)
        case Err(e) => Err(e)
        case Ok(f) => Ok(SearchPlan(svc, seq(|cs|, i requires 0 <= i < |cs| => SearchParams(cs[i], radii[i], f))))
  }

  /** A single coordinate with a single radius gives exactly one search, with
      that coordinate and radius. */
  lemma SingleCoordinateQuery(service: Service, coords: CoordValue, radius: real, format: Option<string>)
    requires coords.Text? || coords.Sky?
    requires NormaliseFormat(format).Ok?
    ensures NormaliseQuery(service, coords, Scalar(radius), format).Ok?
    ensures NormaliseQuery(service, coords, Scalar(radius), format).value.params
      == [SearchParams(coords, radius, NormaliseFormat(format).value)]
  {
  }

  // ---------------------------------------------------------------------------
  // One image (or spectra) search
  // ---------------------------------------------------------------------------

  /** What the modelled code needs from astropy to resolve a coordinate:
      `parse` is `parse_coordinates` (`None` when it raises) and `show` is the
      `"{}".format(...)` rendering of one value. */
  datatype CoordParser = CoordParser(parse: string -> Option<SkyCoord>, show: CoordValue -> string)

  /** A two-element tuple or list. */
  predicate IsPair(c: CoordValue)
  {
    (c.TupleOf? || c.ListOf?) && |c.items| == 2
  }

  /** `parse_coordinates` over one text, with its exception as an error. */
  function ParseText(p: CoordParser, text: string): (r: Result<SkyCoord>)
    ensures r.Ok? <==> p.parse(text).Some?
    ensures r.Ok? ==> r.value == p.parse(text).value
    ensures r.Err? ==> r.error == CoordinateError
  {
    match p.parse(text)
    case None => Err(CoordinateError)
    case Some(c) => Ok(c)
  }

  /** The coordinate resolution of `_one_image_search`: an (ra, dec) pair is
      joined with a space and parsed, a string is parsed, a SkyCoord is used as
      is, and anything else fails the assertion. */
  function ResolveSearchCoords(c: CoordValue, p: CoordParser): (r: Result<SkyCoord>)
    ensures c.Sky? ==> r == Ok(c.coord)
    ensures IsPair(c) ==> r == ParseText(p, p.show(c.items[0]) + " " + p.show(c.items[1]))
    ensures c.Text? ==> r == ParseText(p, c.s)
    ensures !IsPair(c) && !c.Text? && !c.Sky? ==> r == Err(AssertionFailed)
  {
    if IsPair(c) then ParseText(p, p.show(c.items[0]) + " " + p.show(c.items[1]))
    else if c.Text? then ParseText(p, c.s)
    else if c.Sky? then Ok(c.coord)
    else Err(AssertionFailed)
  }

  /** A request parameter value: a position, an angle in degrees, or a token. */
  datatype Param = Position(ra: real, dec: real) | Degrees(x: real) | Token(s: string)

  /** The query parameters of one image search: POS, SIZE and, when a format
      was asked for, FORMAT. */
  function SiaParams(c: SkyCoord, radius: real, format: Option<string>): (r: map<string, Param>)
    ensures r.Keys <= {"POS", "SIZE", "FORMAT"}
    ensures "POS" in r && "SIZE" in r
    ensures "FORMAT" in r <==> format.Some?
  {
    var base := map["POS" := Position(c.ra, c.dec), "SIZE" := Degrees(2.0 * radius)];
    match format
    case None => base
    case Some(f) => base["FORMAT" := Token(f)]
  }

  /** How a service reads those parameters (section 4.1 of the IVOA Simple
      Image Access 1.0 recommendation): POS is the centre, SIZE is the full
      angular width, so the search radius is half of it, and FORMAT is optional. */
  function ReadSiaParams(params: map<string, Param>): Option<(SkyCoord, real, Option<string>)>
  {
    if "POS" in params && params["POS"].Position? && "SIZE" in params && params["SIZE"].Degrees?
      && ("FORMAT" in params ==> params["FORMAT"].Token?)
    then
      var pos := params["POS"];
      var format := if "FORMAT" in params then Some(params["FORMAT"].s) else None;
      Some((SkyCoord(pos.ra, pos.dec), params["SIZE"].x / 2.0, format))
    else None
  }

  /** The service reads back the position, the radius and the format that were
      asked for: SIZE carries the diameter, twice the radius. */
  lemma SiaParamsRoundTrip(c: SkyCoord, radius: real, format: Option<string>)
    ensures ReadSiaParams(SiaParams(c, radius, format)) == Some((c, radius, format))
    ensures SiaParams(c, radius, format)["SIZE"] == Degrees(2.0 * radius)
  {
  }

  /** The request one image or spectra search sends before calling the network:
      its parameters, the timeout in seconds and the number of tries. */
  datatype SearchRequest = SearchRequest(service: Service, params: map<string, Param>, timeout: nat, retries: nat)

  /** `_one_image_search` up to the network call. */
  function OneSearchRequest(p: SearchParams, service: Service, parser: CoordParser, timeout: nat, retries: nat)
    : (r: Result<SearchRequest>)
    ensures r.Ok? <==> ResolveSearchCoords(p.coords, parser).Ok?
    ensures r.Err? ==> r.error == ResolveSearchCoords(p.coords, parser).error
    ensures r.Ok? ==> r.value.service == service && r.value.timeout == timeout && r.value.retries == retries
    ensures r.Ok? ==>
      ReadSiaParams(r.value.params) == Some((ResolveSearchCoords(p.coords, parser).value, p.radius, p.format))
    ensures r.Ok? ==> r.value.params.Keys <= {"POS", "SIZE", "FORMAT"}
    ensures r.Ok? ==> r.value.params == SiaParams(ResolveSearchCoords(p.coords, parser).value, p.radius, p.format)
  {
    match ResolveSearchCoords(p.coords, parser)
    case Err(e) => Err(e)
    case Ok(c) =>
      SiaParamsRoundTrip(c, p.radius, p.format);
      Ok(SearchRequest(service, SiaParams(c, p.radius, p.format), timeout, retries))
  }
}

=== FILE: spectra.dfy ===
/** The spectra search (`SpectraClass`): the same input normalisation and
    per-position request as the image search, a shorter timeout, and column
    lookup by utype mnemonic. */
module SpectraSearch {
  import opened Wrappers
  import opened Tables
  import opened QueryInputs
  import ImageSearch

  /** Seconds before one spectra request times out. */
  const Timeout: nat := 30
  /** Total number of tries for one spectra request. */
  const Retries: nat := 3

  /** `SpectraClass.query` up to the network call. */
  function Query(service: Service, coords: CoordValue, radius: RadiusArg, format: Option<string>)
    : (r: Result<SearchPlan>)
    ensures r.Ok? ==> r.value.service == AsServiceRecord(service)
    ensures coords.Text? || coords.Sky? ==> (r.Ok? ==> |r.value.params| == 1 && r.value.params[0].coords == coords)
    ensures coords.ListOf? && r.Ok? ==> (|r.value.params| == |coords.items|
      && forall i :: 0 <= i < |coords.items| ==> r.value.params[i].coords == coords.items[i])
    ensures radius.Radii? ==> (r.Ok? ==> |radius.rs| == |r.value.params|)
    ensures r.Err? ==> r.error in {AssertionFailed, FormatRejected}
    ensures r.Ok? <==> (WrapCoords(coords).Ok?
      && BroadcastRadius(radius, |WrapCoords(coords).value|).Ok? && NormaliseFormat(format).Ok?)
    ensures WrapCoords(coords).Ok? && BroadcastRadius(radius, |WrapCoords(coords).value|).Err?
      ==> r == Err(AssertionFailed)
    ensures (WrapCoords(coords).Ok? && BroadcastRadius(radius, |WrapCoords(coords).value|).Ok?
      && NormaliseFormat(format).Err?) ==> r == Err(FormatRejected)
    ensures (coords.Text? || coords.Sky?) && radius.Scalar? && format.None? ==> r.Ok?
  {
    NormaliseQuery(service, coords, radius, format)
  }

  /** The spectra search normalises its inputs exactly as the image search does. */
  lemma QueryAgreesWithImage(service: Service, coords: CoordValue, radius: RadiusArg, format: Option<string>)
    ensures Query(service, coords, radius, format) == ImageSearch.Query(service, coords, radius, format)
  {
  }

  /** `_one_image_search` of the spectra class up to the network call. */
  function OneSpectraSearch(p: SearchParams, service: Service, parser: CoordParser): (r: Result<SearchRequest>)
    ensures r.Ok? ==> r.value.timeout == Timeout && r.value.retries == Retries
    ensures r.Ok? ==> "SIZE" in r.value.params && r.value.params["SIZE"] == Degrees(2.0 * p.radius)
    ensures r.Ok? ==> ("FORMAT" in r.value.params <==> p.format.Some?)
    ensures r.Err? <==> ResolveSearchCoords(p.coords, parser).Err?
    ensures r.Err? ==> r.error == ResolveSearchCoords(p.coords, parser).error
    ensures r.Ok? ==>
      ReadSiaParams(r.value.params) == Some((ResolveSearchCoords(p.coords, parser).value, p.radius, p.format))
    ensures r.Ok? ==> r.value.params.Keys <= {"POS", "SIZE", "FORMAT"}
    ensures r.Ok? ==> r.value.service == service
  {
    OneSearchRequest(p, service, parser, Timeout, Retries)
  }

  /** A spectra search sends the same parameters as an image search, with a
      timeout of 30 seconds instead of 60. */
  lemma OneSpectraSearchLikeImage(p: SearchParams, service: Service, parser: CoordParser)
    ensures OneSpectraSearch(p, service, parser).Ok? == ImageSearch.OneImageSearch(p, service, parser).Ok?
    ensures OneSpectraSearch(p, service, parser).Ok? ==>
      OneSpectraSearch(p, service, parser).value.params == ImageSearch.OneImageSearch(p, service, parser).value.params
    ensures OneSpectraSearch(p, service, parser).Ok? ==>
      OneSpectraSearch(p, service, parser).value.service == ImageSearch.OneImageSearch(p, service, parser).value.service
    ensures OneSpectraSearch(p, service, parser).Ok? ==>
      OneSpectraSearch(p, service, parser).value.retries == ImageSearch.OneImageSearch(p, service, parser).value.retries
      && OneSpectraSearch(p, service, parser).value.timeout == ImageSearch.OneImageSearch(p, service, parser).value.timeout / 2
  {
  }

  /** The SSA columns a caller can ask for by mnemonic. */
  datatype SpectraColumn = ACCESS_URL | FORMAT

  /** The utype each mnemonic stands for. */
  function Utype(m: SpectraColumn): string
  {
    match m
    case ACCESS_URL => "ssa:Access.Reference"
    case FORMAT => "ssa:Access.Format"
  }

  /** The mnemonic argument: a `SpectraColumn` member or some other object. */
  datatype SpectraKey = Mnemonic(m: SpectraColumn) | NotAMnemonic

  /** `get_column`: the column `find_column_by_utype` finds for the mnemonic's
      utype. A key that is not a mnemonic raises `ValueError`, and so, checked
      second, does a table argument that is not a table. */
  function GetColumn(table: ImageSearch.TableArg, key: SpectraKey, findByUtype: (Table, string) -> Option<Column>)
    : (r: Result<Option<Column>>)
    ensures r.Err? <==> key.NotAMnemonic? || table.NotATable?
    ensures r.Err? ==> r.error == ValueError
    ensures r.Ok? ==> r.value == findByUtype(table.t, Utype(key.m))
  {
    if key.NotAMnemonic? then Err(ValueError)
    else if table.NotATable? then Err(ValueError)
    else Ok(findByUtype(table.t, Utype(key.m)))
  }

  /** `get_column_name`: the found column's name, or `None` when none is found. */
  function GetColumnName(table: ImageSearch.TableArg, key: SpectraKey, findByUtype: (Table, string) -> Option<Column>)
    : (r: Result<Option<string>>)
    ensures r.Err? <==> GetColumn(table, key, findByUtype).Err?
    ensures r.Err? ==> r.error == ValueError
    ensures r.Ok? ==> (r.value.None? <==> findByUtype(table.t, Utype(key.m)).None?)
    ensures r.Ok? && r.value.Some? ==> r.value.value == findByUtype(table.t, Utype(key.m)).value.name
  {
    match GetColumn(table, key, findByUtype)
    case Err(e) => Err(e)
    case Ok(None) => Ok(None)
    case Ok(Some(c)) => Ok(Some(c.name))
  }
}

=== FILE: tables.dfy ===
/** Tables read from VOTABLE responses and the post-processing the query
    helpers apply to them: `sval`, `sval_whole_column`, `stringify_table`,
    `find_column_by_ucd`, and the parameter record of a synchronous TAP query. */
module Tables {
  import opened Wrappers
  import Utf8

  /** One table cell. `Other` stands for numbers, masked entries and any other
      object; `shown` is what Python's `str()` renders for it. */
  datatype Value = Bytes(b: seq<Utf8.byte>) | Str(s: string) | Other(shown: string)

  /** A column: its name, its metadata (`ucd`, `utype`, ...), whether numpy
      stores it with dtype `object`, and its cells. */
  datatype Column = Column(name: string, meta: map<string, string>, isObject: bool, cells: seq<Value>)

  /** A table: its columns in order, its table-level metadata, and whether it was
      created as a masked table. */
  datatype Table = Table(columns: seq<Column>, meta: map<string, seq<Value>>, masked: bool)

  /** `len(t)`: the number of rows (zero for a table without columns). */
  function RowCount(t: Table): nat
  {
    if |t.columns| == 0 then 0 else |t.columns[0].cells|
  }

  /** Every column holds one cell per row, as in any astropy table. */
  ghost predicate Rectangular(t: Table)
  {
    forall i :: 0 <= i < |t.columns| ==> |t.columns[i].cells| == RowCount(t)
  }

  /** The column names in order. */
  function Names(cols: seq<Column>): (r: seq<string>)
    ensures |r| == |cols|
    ensures forall i :: 0 <= i < |cols| ==> r[i] == cols[i].name
  {
    if |cols| == 0 then [] else [cols[0].name] + Names(cols[1..])
  }

  // ---------------------------------------------------------------------------
  // sval, sval_whole_column, stringify_table
  // ---------------------------------------------------------------------------

  /** `sval(val)`: bytes are decoded as UTF-8, everything else goes through `str()`. */
  function Sval(v: Value): (r: Result<string>)
    ensures v.Str? ==> r == Ok(v.s)
    ensures v.Other? ==> r == Ok(v.shown)
    ensures v.Bytes? ==> (r.Ok? <==> Utf8.Decode(v.b).Some?)
    ensures v.Bytes? && r.Ok? ==> Utf8.Encode(r.value) == v.b
    ensures r.Err? ==> v.Bytes? && r.error == UnicodeDecodeError
  {
    match v
    case Bytes(b) =>
      (match Utf8.Decode(b)
       case None => Err(UnicodeDecodeError)
       case Some(s) => Utf8.EncodeDecode(b); Ok(s))
    case Str(s) => Ok(s)
    case Other(shown) => Ok(shown)
  }

  /** `sval` gives back the text whose UTF-8 bytes it is handed. */
  lemma SvalOfEncoded(s: string)
    ensures Sval(Bytes(Utf8.Encode(s))) == Ok(s)
  {
    Utf8.DecodeEncode(s);
  }

  /** The element-wise pass of `svalv` (the vectorised `sval`) over a
      column's cells; the first cell `sval` rejects raises. The size-0 case,
      which `np.vectorize` refuses before any cell is seen, belongs to
      `SvalWholeColumn`. */
  function SvalCells(cells: seq<Value>): (r: Result<seq<Value>>)
    ensures r.Ok? ==> |r.value| == |cells|
    ensures r.Ok? ==> forall i :: 0 <= i < |cells| ==> Sval(cells[i]).Ok? && r.value[i] == Str(Sval(cells[i]).value)
    ensures r.Err? <==> exists i :: 0 <= i < |cells| && Sval(cells[i]).Err?
    ensures r.Err? ==> r.error == UnicodeDecodeError
  {
    if |cells| == 0 then Ok([])
    else match Sval(cells[0])
      case Err(e) => Err(e)
      case Ok(s) =>
        match SvalCells(cells[1..])
        case Err(e) => Err(e)
        case Ok(rest) => Ok([Str(s)] + rest)
  }

  /** `sval_whole_column`: a string column with the same name and metadata.
      `svalv` is built without `otypes`, so `np.vectorize` raises `ValueError`
      on a column with no cells. */
  function SvalWholeColumn(c: Column): (r: Result<Column>)
    ensures r.Ok? ==> r.value.name == c.name && r.value.meta == c.meta && !r.value.isObject
    ensures r.Ok? ==> |r.value.cells| == |c.cells|
    ensures r.Ok? ==> forall i :: 0 <= i < |c.cells| ==> Sval(c.cells[i]).Ok? && r.value.cells[i] == Str(Sval(c.cells[i]).value)
    ensures r.Err? <==> |c.cells| == 0 || exists i :: 0 <= i < |c.cells| && c.cells[i].Bytes? && Utf8.Decode(c.cells[i].b).None?
    ensures |c.cells| == 0 ==> r == Err(ValueError)
    ensures r.Err? && |c.cells| > 0 ==> r.error == UnicodeDecodeError
  {
    if |c.cells| == 0 then Err(ValueError)
    else match SvalCells(c.cells)
      case Err(e) => Err(e)
      case Ok(cells) => Ok(Column(c.name, c.meta, false, cells))
  }

  /** The columns `stringify_table` rewrites: object dtype with a bytes first
      cell. Such a column is never empty, so rewriting it can only fail on
      invalid UTF-8. */
  function NeedsStringify(c: Column): (b: bool)
    ensures b ==> |c.cells| > 0 && c.cells[0].Bytes?
    ensures b && SvalWholeColumn(c).Err? ==> SvalWholeColumn(c).error == UnicodeDecodeError
  {
    c.isObject && |c.cells| > 0 && c.cells[0].Bytes?
  }

  /** The column-by-column pass of `stringify_table`. */
  function StringifyColumns(cols: seq<Column>): (r: Result<seq<Column>>)
    ensures r.Ok? ==> |r.value| == |cols|
    ensures r.Ok? ==> forall i :: 0 <= i < |cols| ==>
      if NeedsStringify(cols[i]) then SvalWholeColumn(cols[i]) == Ok(r.value[i]) else r.value[i] == cols[i]
    ensures r.Err? <==> exists i :: 0 <= i < |cols| && NeedsStringify(cols[i]) && SvalWholeColumn(cols[i]).Err?
  {
    if |cols| == 0 then Ok([])
    else
      var head := if NeedsStringify(cols[0]) then SvalWholeColumn(cols[0]) else Ok(cols[0]);
      match head
      case Err(e) => Err(e)
      case Ok(c) =>
        match StringifyColumns(cols[1..])
        case Err(e) => Err(e)
        case Ok(rest) => Ok([c] + rest)
  }

  /** `stringify_table(t)`: replaces every bytes-valued object column by its
      decoded string column; a table without rows is left as it is. */
  function StringifyTable(t: Table): (r: Result<Table>)
    ensures RowCount(t) == 0 ==> r == Ok(t)
    ensures r.Ok? ==> r.value.meta == t.meta && r.value.masked == t.masked
    ensures r.Ok? ==> Names(r.value.columns) == Names(t.columns)
    ensures r.Ok? ==> forall i :: 0 <= i < |t.columns| ==>
      if NeedsStringify(t.columns[i]) && RowCount(t) > 0
      then SvalWholeColumn(t.columns[i]) == Ok(r.value.columns[i])
      else r.value.columns[i] == t.columns[i]
    ensures r.Err? <==> RowCount(t) > 0 && exists i :: 0 <= i < |t.columns| && NeedsStringify(t.columns[i]) && SvalWholeColumn(t.columns[i]).Err?
  {
    if RowCount(t) == 0 then Ok(t)
    else match StringifyColumns(t.columns)
      case Err(e) => Err(e)
      case Ok(cols) => Ok(t.(columns := cols))
  }

  /** After `stringify_table` no column is left for it to rewrite, and the row
      count is unchanged. */
  lemma StringifyTableDone(t: Table)
    requires StringifyTable(t).Ok?
    ensures RowCount(StringifyTable(t).value) == RowCount(t)
    ensures RowCount(t) > 0 ==> forall i :: 0 <= i < |t.columns| ==> !NeedsStringify(StringifyTable(t).value.columns[i])
    ensures Rectangular(t) ==> Rectangular(StringifyTable(t).value)
  {
  }

  /** Stringifying a second time changes nothing. */
  lemma StringifyTableIdempotent(t: Table)
    requires StringifyTable(t).Ok?
    ensures StringifyTable(StringifyTable(t).value) == StringifyTable(t)
  {
    var t1 := StringifyTable(t).value;
    StringifyTableDone(t);
    if RowCount(t1) > 0 {
      var t2 := StringifyTable(t1);
      assert t2.Ok?;
      assert t2.value.columns == t1.columns;
    }
  }

  /** `astropy_table_from_votable_response`: the VOTABLE reader's outcome
      (success or failure, `parsed`), then `stringify_table`. */
  function TableFromVotableResponse(parsed: Result<Table>): (r: Result<Table>)
    ensures parsed.Err? ==> r == Err(parsed.error)
    ensures r.Ok? ==> parsed.Ok? && Names(r.value.columns) == Names(parsed.value.columns)
    ensures r.Ok? && RowCount(parsed.value) > 0 ==> forall i :: 0 <= i < |r.value.columns| ==> !NeedsStringify(r.value.columns[i])
    ensures parsed.Ok? ==> r == StringifyTable(parsed.value)
  {
    match parsed
    case Err(e) => Err(e)
    case Ok(t) =>
      var r := StringifyTable(t);
      if r.Ok? then StringifyTableDone(t); r else r
  }

  // ---------------------------------------------------------------------------
  // find_column_by_ucd
  // ---------------------------------------------------------------------------

  /** The column's metadata has a `ucd` entry equal to `ucd`. */
  predicate HasUcd(c: Column, ucd: string)
  {
    "ucd" in c.meta && c.meta["ucd"] == ucd
  }

  /** Column `i` carries `ucd` and no column before it does. */
  ghost predicate FirstWithUcd(cols: seq<Column>, ucd: string, i: int)
  {
    0 <= i < |cols| && HasUcd(cols[i], ucd) && forall j :: 0 <= j < i ==> !HasUcd(cols[j], ucd)
  }

  /** The position of the first column carrying `ucd`. */
  function FirstUcdIndex(cols: seq<Column>, ucd: string): (r: Option<nat>)
    ensures r.Some? ==> r.value < |cols| && HasUcd(cols[r.value], ucd)
    ensures r.Some? ==> forall j :: 0 <= j < r.value ==> !HasUcd(cols[j], ucd)
    ensures r.None? <==> forall j :: 0 <= j < |cols| ==> !HasUcd(cols[j], ucd)
  {
    if |cols| == 0 then None
    else if HasUcd(cols[0], ucd) then Some(0)
    else match FirstUcdIndex(cols[1..], ucd)
      case None => None
      case Some(i) => Some(i + 1)
  }

  /** `find_column_by_ucd(table, ucd)`: the first column, in column order,
      whose `ucd` metadata equals `ucd`; `None` when there is none. */
  function FindColumnByUcd(t: Table, ucd: string): (r: Option<Column>)
    ensures r.Some? ==> r.value in t.columns && HasUcd(r.value, ucd)
    ensures r.Some? ==> exists i :: FirstWithUcd(t.columns, ucd, i) && t.columns[i] == r.value
    ensures r.None? <==> forall j :: 0 <= j < |t.columns| ==> !HasUcd(t.columns[j], ucd)
  {
    match FirstUcdIndex(t.columns, ucd)
    case None => None
    case Some(i) => Some(t.columns[i])
  }

  /** The column found is the one at the first position carrying `ucd`. */
  lemma FindColumnByUcdAt(t: Table, ucd: string, i: int)
    requires FirstWithUcd(t.columns, ucd, i)
    ensures FindColumnByUcd(t, ucd) == Some(t.columns[i])
  {
    var k := FirstUcdIndex(t.columns, ucd);
    assert k.Some? && k.value == i by {
      assert !(forall j :: 0 <= j < |t.columns| ==> !HasUcd(t.columns[j], ucd));
    }
  }

  /** A column without `ucd` metadata is never the answer. */
  lemma FindColumnByUcdSkipsUntagged(t: Table, ucd: string)
    requires FindColumnByUcd(t, ucd).Some?
    ensures "ucd" in FindColumnByUcd(t, ucd).value.meta
  {
  }

  // ---------------------------------------------------------------------------
  // tap_query parameters
  // ---------------------------------------------------------------------------

  /** The form fields of a synchronous TAP query (`tap_query`). */
  function TapParams(query: string): (r: map<string, string>)
    ensures r.Keys == {"request", "lang", "query"}
  {
    map["request" := "doQuery", "lang" := "ADQL", "query" := query]
  }

  /** How a TAP service reads a synchronous request (section 2.3 of IVOA TAP
      1.0): a `doQuery` request in ADQL carries its query text in `query`. */
  function AdqlQueryOf(params: map<string, string>): Option<string>
  {
    if "request" in params && params["request"] == "doQuery"
      && "lang" in params && params["lang"] == "ADQL"
      && "query" in params
    then Some(params["query"])
    else None
  }

  /** The service reads back exactly the query that was sent. */
  lemma TapParamsRoundTrip(query: string)
    ensures AdqlQueryOf(TapParams(query)) == Some(query)
  {
  }
}

=== FILE: text.dfy ===
/** The string operations the query builders rely on: Python's `str.lower`,
    the `in` substring test and `str.join`. */
module Text {

  /** Lower-cases one character (ASCII letters only). */
  function LowerChar(c: char): (r: char)
    ensures 'A' <= c <= 'Z' ==> r as int == c as int + 32
    ensures !('A' <= c <= 'Z') ==> r == c
    ensures !('A' <= r <= 'Z')
  {
    if 'A' <= c <= 'Z' then (c as int + 32) as char else c
  }

  /** Python's `s.lower()`, restricted to ASCII case mapping. */
  function Lower(s: string): (r: string)
    ensures |r| == |s|
    ensures forall i :: 0 <= i < |s| ==> r[i] == LowerChar(s[i])
  {
    if |s| == 0 then "" else [LowerChar(s[0])] + Lower(s[1..])
  }

  /** Lower-casing twice is lower-casing once. */
  lemma LowerIdempotent(s: string)
    ensures Lower(Lower(s)) == Lower(s)
  {
    var l := Lower(s);
    assert forall i :: 0 <= i < |l| ==> LowerChar(l[i]) == l[i];
  }

  /** `sub` occurs in `s` starting at position `i`. */
  ghost predicate OccursAt(s: string, sub: string, i: int)
  {
    0 <= i && i + |sub| <= |s| && s[i..i + |sub|] == sub
  }

  /** Python's `sub in s`, computed by trying every start position. */
  function Contains(s: string, sub: string): (b: bool)
    ensures b <==> exists i :: OccursAt(s, sub, i)
    decreases |s|
  {
    if |sub| <= |s| && s[..|sub|] == sub then
      assert OccursAt(s, sub, 0);
      true
    else if |s| == 0 then
      assert forall i :: !OccursAt(s, sub, i);
      false
    else
      var b := Contains(s[1..], sub);
      assert b <==> exists i :: OccursAt(s, sub, i) by {
        OccursShift(s, sub);
      }
      b
  }

  /** When `sub` does not start `s`, it occurs in `s` exactly when it occurs in `s[1..]`. */
  lemma OccursShift(s: string, sub: string)
    requires |s| > 0
    requires !(|sub| <= |s| && s[..|sub|] == sub)
    ensures (exists i :: OccursAt(s, sub, i)) <==> (exists i :: OccursAt(s[1..], sub, i))
  {
    forall i | OccursAt(s[1..], sub, i)
      ensures OccursAt(s, sub, i + 1)
    {
      assert s[1..][i..i + |sub|] == s[i + 1..i + 1 + |sub|];
    }
    forall i | OccursAt(s, sub, i)
      ensures i >= 1 && OccursAt(s[1..], sub, i - 1)
    {
      assert s[1..][i - 1..i - 1 + |sub|] == s[i..i + |sub|];
    }
  }

  /** A string that holds no upper-case letter is its own lower-case form. */
  lemma LowerOfLower(s: string)
    requires forall i :: 0 <= i < |s| ==> !('A' <= s[i] <= 'Z')
    ensures Lower(s) == s
  {
  }

  /** A string lacking one of `sub`'s characters does not contain `sub`. */
  lemma NotContainedChar(s: string, sub: string, c: char)
    requires c in sub && c !in s
    ensures !Contains(s, sub)
  {
  }

  /** Python's `sep.join(parts)`. */
  function Join(sep: string, parts: seq<string>): (r: string)
    ensures |parts| == 0 ==> r == ""
    ensures |parts| > 0 ==> parts[0] <= r
  {
    if |parts| == 0 then ""
    else if |parts| == 1 then parts[0]
    else parts[0] + sep + Join(sep, parts[1..])
  }

  /** The joined text ends with the last part. */
  lemma {:induction false} JoinEndsWithLast(sep: string, parts: seq<string>)
    requires |parts| > 0
    ensures var last := parts[|parts| - 1];
      |last| <= |Join(sep, parts)| && Join(sep, parts)[|Join(sep, parts)| - |last|..] == last
    decreases |parts|
  {
    if |parts| > 1 {
      JoinEndsWithLast(sep, parts[1..]);
      assert parts[1..][|parts| - 2] == parts[|parts| - 1];
    }
  }

  /** Appending one more part appends the separator and that part. */
  lemma {:induction false} JoinSnoc(sep: string, parts: seq<string>, last: string)
    requires |parts| > 0
    ensures Join(sep, parts + [last]) == Join(sep, parts) + sep + last
    decreases |parts|
  {
    if |parts| == 1 {
      assert (parts + [last])[1..] == [last];
    } else {
      assert (parts + [last])[1..] == parts[1..] + [last];
      JoinSnoc(sep, parts[1..], last);
    }
  }

  /** The joined string is as long as all parts plus one separator between each two. */
  lemma {:induction false} JoinLength(sep: string, parts: seq<string>)
    requires |parts| > 0
    ensures |Join(sep, parts)| == TotalLength(parts) + (|parts| - 1) * |sep|
    decreases |parts|
  {
    if |parts| > 1 {
      JoinLength(sep, parts[1..]);
    }
  }

  /** Sum of the lengths of `parts`. */
  function TotalLength(parts: seq<string>): nat
  {
    if |parts| == 0 then 0 else |parts[0]| + TotalLength(parts[1..])
  }
}

=== FILE: utf8.dfy ===
/** UTF-8 as Python's strict `str(b, 'utf-8')` reads it (RFC 3629, section 4):
    the decoder accepts exactly the well-formed byte sequences, so overlong
    forms, encoded surrogates and values above U+10FFFF are errors, and the
    encoder is its exact inverse. */
module Utf8 {
  import opened Wrappers

  type byte = x: int | 0 <= x < 256

  /** A continuation byte `10xxxxxx`. */
  predicate IsCont(b: byte)
  {
    0x80 <= b <= 0xBF
  }

  /** The bytes of one scalar value, in the shortest form. */
  function EncodeChar(c: char): (r: seq<byte>)
    ensures 1 <= |r| <= 4
    ensures (|r| == 1) == (c as int < 0x80)
  {
    var n := c as int;
    if n < 0x80 then [n]
    else if n < 0x800 then [0xC0 + n / 0x40, 0x80 + n % 0x40]
    else if n < 0x10000 then [0xE0 + n / 0x1000, 0x80 + (n / 0x40) % 0x40, 0x80 + n % 0x40]
    else [0xF0 + n / 0x40000, 0x80 + (n / 0x1000) % 0x40, 0x80 + (n / 0x40) % 0x40, 0x80 + n % 0x40]
  }

  /** The UTF-8 encoding of a whole string. */
  function Encode(s: string): (r: seq<byte>)
    ensures |r| >= |s|
  {
    if |s| == 0 then [] else EncodeChar(s[0]) + Encode(s[1..])
  }

  /** The scalar value at the head of `b`, and how many bytes it took. */
  function DecodeFirst(b: seq<byte>): (r: Option<(char, nat)>)
    requires |b| > 0
    ensures r.Some? ==> 1 <= r.value.1 <= |b| && r.value.1 <= 4
  {
    var b0 := b[0] as int;
    if b0 < 0x80 then
      Some((b0 as char, 1))
    else if 0xC2 <= b0 <= 0xDF then
      if |b| >= 2 && IsCont(b[1]) then
        Some((((b0 - 0xC0) * 0x40 + (b[1] as int - 0x80)) as char, 2))
      else None
    else if 0xE0 <= b0 <= 0xEF then
      if |b| >= 3
        && (if b0 == 0xE0 then 0xA0 <= b[1] <= 0xBF
            else if b0 == 0xED then 0x80 <= b[1] <= 0x9F
            else IsCont(b[1]))
        && IsCont(b[2])
      then
        Some((((b0 - 0xE0) * 0x1000 + (b[1] as int - 0x80) * 0x40 + (b[2] as int - 0x80)) as char, 3))
      else None
    else if 0xF0 <= b0 <= 0xF4 then
      if |b| >= 4
        && (if b0 == 0xF0 then 0x90 <= b[1] <= 0xBF
            else if b0 == 0xF4 then 0x80 <= b[1] <= 0x8F
            else IsCont(b[1]))
        && IsCont(b[2]) && IsCont(b[3])
      then
        Some((((b0 - 0xF0) * 0x40000 + (b[1] as int - 0x80) * 0x1000 + (b[2] as int - 0x80) * 0x40 + (b[3] as int - 0x80)) as char, 4))
      else None
    else
      None
  }

  /** Strict decoding: `None` is the `UnicodeDecodeError` case. */
  function Decode(b: seq<byte>): (r: Option<string>)
    ensures r.Some? ==> (|r.value| == 0 <==> |b| == 0)
    decreases |b|
  {
    if |b| == 0 then Some("")
    else match DecodeFirst(b)
      case None => None
      case Some((c, k)) =>
        match Decode(b[k..])
        case None => None
        case Some(rest) => Some([c] + rest)
  }

  /** A decoded string has at most one character per byte. */
  lemma {:induction false} DecodeLength(b: seq<byte>)
    requires Decode(b).Some?
    ensures |Decode(b).value| <= |b|
    decreases |b|
  {
    if |b| > 0 {
      DecodeLength(b[DecodeFirst(b).value.1..]);
    }
  }

  /** Pure ASCII decodes byte for byte: each byte below `0x80` is the
      character with that code. */
  lemma {:induction false} DecodeAscii(b: seq<byte>)
    requires forall i :: 0 <= i < |b| ==> b[i] < 0x80
    ensures Decode(b).Some? && |Decode(b).value| == |b|
    ensures forall i :: 0 <= i < |b| ==> Decode(b).value[i] as int == b[i]
    decreases |b|
  {
    if |b| > 0 {
      assert DecodeFirst(b) == Some((b[0] as char, 1));
      DecodeAscii(b[1..]);
    }
  }

  /** Division facts for splitting a value into bit groups. */
  lemma DivModSplit(q: int, r: int, d: int)
    requires d == 0x40 || d == 0x1000 || d == 0x40000
    requires 0 <= r < d
    ensures (q * d + r) / d == q && (q * d + r) % d == r
  {
  }

  /** Decoding the encoding of one scalar value reads it back whole. */
  lemma DecodeFirstEncodeChar(c: char, rest: seq<byte>)
    ensures DecodeFirst(EncodeChar(c) + rest) == Some((c, |EncodeChar(c)|))
  {
    var n := c as int;
    if n < 0x80 {
    } else if n < 0x800 {
      DivModSplit(n / 0x40, n % 0x40, 0x40);
    } else if n < 0x10000 {
      ThreeByteRoundTrip(c, rest);
    } else {
      FourByteRoundTrip(c, rest);
    }
  }

  /** The round trip for a scalar value encoded in three bytes. */
  lemma ThreeByteRoundTrip(c: char, rest: seq<byte>)
    requires 0x800 <= c as int < 0x10000
    ensures DecodeFirst(EncodeChar(c) + rest) == Some((c, 3))
  {
    var n := c as int;
    var q := n / 0x40;
    assert n == q * 0x40 + n % 0x40;
    assert q == (q / 0x40) * 0x40 + q % 0x40;
    assert q / 0x40 == n / 0x1000;
  }

  /** The round trip for a scalar value encoded in four bytes. */
  lemma FourByteRoundTrip(c: char, rest: seq<byte>)
    requires 0x10000 <= c as int
    ensures DecodeFirst(EncodeChar(c) + rest) == Some((c, 4))
  {
    var n := c as int;
    var q := n / 0x40;
    var q2 := q / 0x40;
    assert n == q * 0x40 + n % 0x40;
    assert q == q2 * 0x40 + q % 0x40;
    assert q2 == (q2 / 0x40) * 0x40 + q2 % 0x40;
    assert q2 == n / 0x1000;
    assert q2 / 0x40 == n / 0x40000;
  }

  /** Decoding the encoding of a string gives the string back. */
  lemma {:induction false} DecodeEncode(s: string)
    ensures Decode(Encode(s)) == Some(s)
    decreases |s|
  {
    if |s| > 0 {
      var e := EncodeChar(s[0]);
      DecodeFirstEncodeChar(s[0], Encode(s[1..]));
      assert (e + Encode(s[1..]))[|e|..] == Encode(s[1..]);
      DecodeEncode(s[1..]);
      assert [s[0]] + s[1..] == s;
    }
  }

  /** Whatever the decoder accepts at the head is the encoding of what it read. */
  lemma DecodeFirstIsEncoding(b: seq<byte>)
    requires |b| > 0 && DecodeFirst(b).Some?
    ensures b[..DecodeFirst(b).value.1] == EncodeChar(DecodeFirst(b).value.0)
  {
    var b0 := b[0] as int;
    if b0 < 0x80 {
    } else if b0 <= 0xDF {
      TwoByteIsEncoding(b);
    } else if b0 <= 0xEF {
      ThreeByteIsEncoding(b);
    } else {
      FourByteIsEncoding(b);
    }
  }

  /** A two-byte form the decoder accepts is the encoding of what it read. */
  lemma TwoByteIsEncoding(b: seq<byte>)
    requires |b| > 0 && 0xC2 <= b[0] <= 0xDF && DecodeFirst(b).Some?
    ensures b[..2] == EncodeChar(DecodeFirst(b).value.0)
  {
    DivModSplit(b[0] as int - 0xC0, b[1] as int - 0x80, 0x40);
  }

  /** A three-byte form the decoder accepts is the encoding of what it read. */
  lemma ThreeByteIsEncoding(b: seq<byte>)
    requires |b| > 0 && 0xE0 <= b[0] <= 0xEF && DecodeFirst(b).Some?
    ensures b[..3] == EncodeChar(DecodeFirst(b).value.0)
  {
    var b0 := b[0] as int;
    var n := DecodeFirst(b).value.0 as int;
    var hi := (b0 - 0xE0) * 0x40 + (b[1] as int - 0x80);
    assert n == hi * 0x40 + (b[2] as int - 0x80);
    DivModSplit(hi, b[2] as int - 0x80, 0x40);
    DivModSplit(b0 - 0xE0, b[1] as int - 0x80, 0x40);
    assert n == (b0 - 0xE0) * 0x1000 + ((b[1] as int - 0x80) * 0x40 + (b[2] as int - 0x80));
    DivModSplit(b0 - 0xE0, (b[1] as int - 0x80) * 0x40 + (b[2] as int - 0x80), 0x1000);
  }

  /** A four-byte form the decoder accepts is the encoding of what it read. */
  lemma FourByteIsEncoding(b: seq<byte>)
    requires |b| > 0 && 0xF0 <= b[0] <= 0xF4 && DecodeFirst(b).Some?
    ensures b[..4] == EncodeChar(DecodeFirst(b).value.0)
  {
    var b0 := b[0] as int;
    var n := DecodeFirst(b).value.0 as int;
    var hi := (b0 - 0xF0) * 0x40 + (b[1] as int - 0x80);
    var mid := hi * 0x40 + (b[2] as int - 0x80);
    assert n == mid * 0x40 + (b[3] as int - 0x80);
    DivModSplit(mid, b[3] as int - 0x80, 0x40);
    DivModSplit(hi, b[2] as int - 0x80, 0x40);
    DivModSplit(b0 - 0xF0, b[1] as int - 0x80, 0x40);
    var low12 := (b[2] as int - 0x80) * 0x40 + (b[3] as int - 0x80);
    assert n == hi * 0x1000 + low12;
    DivModSplit(hi, low12, 0x1000);
    var low18 := (b[1] as int - 0x80) * 0x1000 + low12;
    assert n == (b0 - 0xF0) * 0x40000 + low18;
    DivModSplit(b0 - 0xF0, low18, 0x40000);
  }

  /** Whatever the decoder accepts is the encoding of what it returns. */
  lemma {:induction false} EncodeDecode(b: seq<byte>)
    requires Decode(b).Some?
    ensures Encode(Decode(b).value) == b
    decreases |b|
  {
    if |b| > 0 {
      var k := DecodeFirst(b).value.1;
      var c := DecodeFirst(b).value.0;
      DecodeFirstIsEncoding(b);
      EncodeDecode(b[k..]);
      var s := Decode(b).value;
      assert s[0] == c && s[1..] == Decode(b[k..]).value;
      assert b == b[..k] + b[k..];
    }
  }
}

=== FILE: wrappers.dfy ===
/** Option and Result types used throughout the model, and the kinds of
    Python exceptions the modelled code can raise. */
module Wrappers {

  /** Python's `None`-or-value. */
  datatype Option<+T> = None | Some(value: T)

  /** The exceptions the modelled functions raise, one constructor per kind. */
  datatype Error =
    | AssertionFailed      // a failed `assert` on the argument types
    | ValueError           // an explicit `raise ValueError(...)`
    | FormatRejected       // the `raise Exception(...)` for an unknown image format
    | KeyError             // a dictionary or column-name lookup that misses
    | IndexError           // a sequence index out of range
    | TypeError            // `len` or slicing applied to an unsized value
    | UnicodeDecodeError   // `str(b, 'utf-8')` on bytes that are not UTF-8
    | CoordinateError      // `parse_coordinates` could not read the text
    | VotableError         // the VOTABLE reader could not parse the response
    | RegistryError        // the registry lookup raised

  /** A value or the exception that replaced it. */
  datatype Result<+T> = Ok(value: T) | Err(error: Error)
}
